=== FILE: README.md ===
# Offline-first PWA: service worker, entry store and push key decoding

This project models the core of an offline-first progressive web app. The
app is a page that writes journal entries to IndexedDB and a service worker
that does three jobs:

- it answers the page's requests from Cache Storage or the network, with a
  fixed routing table;
- it delivers pending entries to a remote endpoint in a background-sync pass;
- it turns push messages into notifications.

The model covers these parts of the source:

- **Cache Storage** (`CacheStorage`): named caches in creation order.
  - `caches.match` searches every cache.
  - `put` opens (creates) its cache.
  - The `install` handler precaches the app shell. `cache.addAll` stores every
    response or none.
  - The `activate` handler deletes every cache that is not named by the
    current version (`static-v3`, `runtime-v3`, `images-v3`).
- **Strategies** (`Strategies`): cache-first, stale-while-revalidate and
  network-first. Each is one step from the caches, and from what the network
  would answer, to the reply and the caches afterwards.
- **Routing** (`Router`): the `fetch` handler. It lets every non-GET request
  through, and routes the rest first-match-wins:
  1. navigations;
  2. app-shell paths;
  3. API calls (`isAPI`);
  4. images;
  5. static assets;
  6. everything else.
- **Entry store** (`EntryStore`): the `entries` object store.
  - The page's `addEntry`, `listEntries`, `clearEntries`, and `getDB` with its
    cached connection.
  - The worker's `getPendingEntries` (the `by-status` index) and
    `markAsSynced`.
  - The auto-increment key generator, which `clear` does not reset.
- **Sync pass** (`Sync`): `sendToServer`, `syncEntries`, and the `sync` and
  `message` events that start a pass.
- **Notifications** (`Notifications`):
  - the `push` handler, with its defaults for a payload that is missing,
    malformed or lacking fields;
  - the `notificationclick` handler, which focuses a page already showing the
    notification's URL or opens a new one.
- **Push key decoding** (`Base64Url`): `base64UrlToUint8Array`, including the
  forgiving-base64 `atob` it relies on. Section 5 of RFC 4648 (the URL-safe
  alphabet) and section 4 (the standard alphabet) define the two alphabets.

I/O becomes parameters:

- What the network answers is a `FetchOutcome` or a function from URL to
  outcome.
- What the sync endpoint answers is a function from entry to `PostOutcome`.
- `Date.now()` is a parameter of `AddEntry`.
- The outcome of `openDB` is a parameter of `GetDb`.
- Whether background sync is available is a boolean.
- The window clients are a sequence.

Behaviour worth knowing:

- **Versioned cache names.** The caches are `static-v3`, `runtime-v3` and
  `images-v3`. Activation deletes every other cache, including those of
  earlier versions.
- **`caches.match` is global.** It answers from the first cache, in creation
  order, that holds the key, whichever cache the strategy writes to.
  `MatchAfterPut` and `RevalidatedCopyServedNext` state what that means for a
  freshly written copy.
- **The navigation fallback is a promise.** It is the pending
  `caches.match(OFFLINE_URL)`, which settles to `undefined` when the offline
  page is not cached. In that case network-first settles to `undefined`, and
  `Response.error()` is never reached (`Strategies.Fallback`).
- **Stale-while-revalidate can settle to `undefined`.** On a cache miss with a
  failed fetch, its `catch` returns the missing cached value.
- **Clicks compare paths only.** The `notificationclick` handler compares a
  client's pathname with the notification URL as a whole.
- **Index order.** The `by-status` index returns the records of one status in
  ascending id order, because ties on the index key are ordered by primary
  key.

## Model

| member | source | states |
|---|---|---|
| CacheStorage.Names | public/sw.js:28 | `caches.keys()` lists one name per cache, in creation order |
| CacheStorage.Match | public/sw.js:39 | `caches.match` misses exactly when no cache holds the key; otherwise it answers with the entry of the first cache that does |
| CacheStorage.Put | public/sw.js:43 | a put creates the named cache at the end when it is absent; it keeps every cache name and leaves every other cache unchanged |
| CacheStorage.PutContents | public/sw.js:43 | a put sets the key to the response in its own cache, leaves every other cache's lookup unchanged, and leaves the named cache in existence |
| CacheStorage.PutWellFormed | public/sw.js:43 | a put never creates a second cache with an existing name |
| CacheStorage.MatchPutOther | public/sw.js:39-43 | a put of one key leaves the match result of every other key unchanged |
| CacheStorage.MatchPutOthers | public/sw.js:39-43 | a put of one key leaves what every other key matches unchanged, for all keys at once |
| CacheStorage.MatchPutFresh | public/sw.js:39-44 | after a miss, a put makes the key match the stored response |
| CacheStorage.MatchPutOwned | public/sw.js:50-53 | when no other cache holds the key, a put makes the key match the new response |
| CacheStorage.MatchAfterPut | public/sw.js:39-43 | after a put the key always matches, though possibly from an older cache |
| CacheStorage.Retain | public/sw.js:29-33 | deleting unlisted caches keeps only listed caches, keeps every listed one and adds none. The result is a subsequence of the caches, so the survivors keep their creation order. A key that only listed caches hold matches exactly as before. Unique names stay unique |
| CacheStorage.SubsequenceMember | public/sw.js:29-33 | every cache kept by a subsequence is one of the original caches, at some position |
| CacheStorage.SubsequenceOrder | public/sw.js:29-33 | two caches kept by a subsequence appear among the originals in the same order, so deletion never reorders caches |
| CacheStorage.Activate | public/sw.js:27-34 | activation keeps exactly the caches of the current version, in their creation order (a subsequence). A key held only by current caches matches exactly as before. Unique names stay unique |
| CacheStorage.ActivateNames | public/sw.js:28-33 | the names after activation are exactly the current-version names that existed before |
| CacheStorage.ActivateDropsOldDeployment | public/sw.js:27-34 | given `static-v3`, `runtime-v3`, `images-v2` and `static-v2`, activation leaves `static-v3` and `runtime-v3` untouched and does not create `images-v3` |
| CacheStorage.ActivateKeepsContents | public/sw.js:29-33 | every surviving cache keeps exactly its contents |
| CacheStorage.ShellKeys | public/sw.js:10-17 | the precached URLs are the six app-shell paths resolved against the origin: no URL is listed twice, and the offline page is among them |
| CacheStorage.PutAll | public/sw.js:21 | storing a list of responses adds exactly those URLs to the cache and changes no other cache |
| CacheStorage.Install | public/sw.js:19-22 | install always opens the static cache. It succeeds iff every app-shell fetch succeeds with a 2xx status, and then stores every shell response. On failure it stores none. Other caches are never touched |
| CacheStorage.InstallStoresShellAsset | public/sw.js:20-21 | a successful install leaves every app-shell URL in the static cache |
| Strategies.CacheFirst | public/sw.js:38-47 | a hit is served without any fetch or cache change. On a miss the fetched response is served, stored in the named cache and matchable. An offline miss rejects with no cache change. No other cache ever changes, and every other key matches as before |
| Strategies.StaleWhileRevalidate | public/sw.js:49-58 | always fetches. A cached copy is served whatever the network does; on a miss the network response is served, or `undefined` when offline. Every fetched response replaces the stored copy, and a failed fetch changes no cache. No other cache ever changes, and every other key matches as before |
| Strategies.NetworkFirst | public/sw.js:60-69 | never rejects. A fetched response is served and stored. Offline, it serves the cached copy, else the fallback, else `Response.error()`. It settles to `undefined` iff the fetch failed, nothing was cached and the deferred fallback settled empty. No other cache ever changes, and every other key matches as before |
| Strategies.CacheFirstServesAgain | public/sw.js:38-47 | once cache-first has served a response, every later call serves it again without fetching |
| Strategies.StaleServedOffline | public/sw.js:50-56 | offline, a cached copy is still served and the caches stay unchanged |
| Strategies.RevalidatedCopyServedNext | public/sw.js:50-56 | when only the strategy's cache holds the key, the revalidated response is what the next request gets |
| Strategies.NetworkFirstNeverEmpty | public/sw.js:65-68 | network-first always answers with a response unless the deferred fallback itself settles empty |
| Router.IsApi | public/sw.js:71-79 | a cross-origin URL is an API call iff its host is `jsonplaceholder.typicode.com`; a same-origin URL is one iff its path starts with `/api/` |
| Router.Apply | public/sw.js:89-125 | a request skips the network only on a cache-first hit, and rejects only on an offline cache-first miss. A failed fetch changes no cache. A fetched response is stored in the decision's cache, no other cache changes, and every other key matches as before. An offline, uncached navigation gets the cached offline page. An empty reply needs an offline miss and, under network-first, an uncached offline page |
| Router.Route | public/sw.js:82-126 | non-GET requests pass through. Each of the five decisions is taken iff its row's condition holds and no earlier row's does. Only navigations fall back to the offline page |
| Router.FirstMatch | public/sw.js:86-125 | a rule table's decision is that of the first rule whose guard holds; there is none iff no guard holds |
| Router.RouteIsTable | public/sw.js:86-125 | the handler's chain of tests equals the six-row table read first-match-wins |
| Router.RouteTotalOnReads | public/sw.js:125 | every GET request matches some row |
| Router.ShellRowPrecedesApiRow | public/sw.js:75-106 | a cross-origin request to the API host whose path is `/` is an API call, yet it is routed cache-first because the app-shell row comes first |
| Router.OnFetch | public/sw.js:82-126 | the handler passes a request through iff it is not a GET. Only a shell-path cache hit skips the network. Only an offline, uncached shell-path request rejects. A failed fetch changes no cache |
| Router.StoredKeyMatches | public/sw.js:91 | a key stored in any cache is found by `caches.match` |
| Router.NavigationAnsweredOffline | public/sw.js:89-94 | once the offline page is in the static cache, every navigation gets a response, online or not |
| Router.OfflinePageIsShellAsset | public/sw.js:7-13 | the offline page is the third app-shell asset |
| Router.InstallStoresOfflinePage | public/sw.js:19-22 | a successful install stores the offline page in the static cache |
| EntryStore.AddEntry | src/db.ts:34-43 | the add succeeds iff the key generator stands at most at 2^53 and its key is free; it always succeeds on a valid store within that limit. The new pending record carries the text and the time, takes the key generator's current number, which was free, and advances the generator by one. It is the only change. Validity is kept |
| EntryStore.FreshValid | src/db.ts:22-30 | the store as first created, empty with its key generator at 1, is valid and lists nothing |
| EntryStore.LastGeneratedKey | src/db.ts:41 | the generator hands out 2^53 itself as a key, and the add after that fails |
| EntryStore.ClearEntries | src/db.ts:51-54 | clearing removes every record, keeps the key generator, and keeps the store valid |
| EntryStore.InKeyOrder | src/db.ts:47 | `getAll` returns exactly the stored records |
| EntryStore.InKeyOrderIncreasing | src/db.ts:47 | `getAll` returns records in strictly ascending key order |
| EntryStore.InKeyOrderAgrees | src/db.ts:47 | the key-ordered read up to a bound depends only on the records below it |
| EntryStore.InsertNewest | src/db.ts:48 | one insertion step of the sort adds exactly the inserted entry |
| EntryStore.SortNewestFirst | src/db.ts:48 | the sort is a permutation of its input |
| EntryStore.InsertNewestOrdered | src/db.ts:48 | inserting an entry whose id is below every listed one keeps the listing newest-first with ties by ascending id |
| EntryStore.SortNewestFirstOrdered | src/db.ts:47-48 | sorting the key-ordered records gives them newest first, with ties by ascending id (the sort is stable) |
| EntryStore.ListEntries | src/db.ts:45-49 | the listing holds every stored record exactly once, newest first, and by ascending id among records created at the same instant |
| EntryStore.ByStatus | public/sw.js:151-152 | the index read returns exactly the records with that status, in ascending id order |
| EntryStore.FilterStatus | public/sw.js:151-152 | the filter keeps exactly the entries with the status, in their order |
| EntryStore.PendingEntries | public/sw.js:147-157 | `getPendingEntries` returns exactly the pending records, in ascending id order |
| EntryStore.MarkEach | public/sw.js:165-174 | each listed id with a record is flagged synced and every other record is unchanged. Listed ids without a record are skipped |
| EntryStore.MarkAsSynced | public/sw.js:159-178 | keys, key generator, text, time and id are kept. A record ends synced iff it was listed or already synced. Validity is kept |
| EntryStore.AddEntryEvolves | src/db.ts:34-43 | adding a record leaves every existing record exactly as it was |
| EntryStore.MarkAsSyncedEvolves | public/sw.js:159-178 | marking never loses a record, never changes its content, and never makes a synced record pending again |
| EntryStore.ListAfterAdd | src/db.ts:34-49 | after `addEntry`, the listing is the previous listing plus the new record, as a multiset |
| EntryStore.ListAfterClear | src/db.ts:45-54 | after `clearEntries`, the listing is empty |
| EntryStore.AddAfterClearFreshId | src/db.ts:34-54 | a record added after `clearEntries` gets an id larger than that of every record before the clear |
| EntryStore.GetDb | src/db.ts:18-32 | with a cached connection, `getDB` returns it without opening. Otherwise it opens once and caches the connection only on success, so a failed open is retried later |
| EntryStore.GetDbIdempotent | src/db.ts:20-32 | once `getDB` has succeeded, later calls return the same handle and never open again |
| Sync.AcknowledgedIds | public/sw.js:184-195 | the collected ids are exactly the ids of entries whose POST resolved with a 2xx status |
| Sync.SendToServer | public/sw.js:182-196 | the sequential delivery loop collects exactly the acknowledged ids, in delivery order |
| Sync.AcknowledgedIdsIncreasing | public/sw.js:184-195 | delivering entries in ascending id order collects ids in ascending order, with no duplicates |
| Sync.SyncEntries | public/sw.js:204-220 | a pass keeps the store valid and the same keys and key generator. It only moves records forward. It asks for a new sync registration iff sync is supported and records are still pending. A posted count is positive |
| Sync.SyncWithoutPendingIsNoOp | public/sw.js:205-206 | with nothing pending, a pass changes nothing, notifies nobody and registers nothing |
| Sync.SyncFlipsExactlyAcknowledged | public/sw.js:204-209 | a record is synced after the pass iff it was already synced or was pending and its POST was acknowledged |
| Sync.PendingListed | public/sw.js:216-217 | some record is pending iff the pending listing is non-empty |
| Sync.SyncNotifiesDeliveredCount | public/sw.js:211-214 | pages are notified iff some record was delivered, and the count posted is the number of records delivered |
| Sync.SyncSettles | public/sw.js:204-209 | with the same endpoint behaviour, a second pass has nothing left to deliver |
| Sync.PartialDelivery | public/sw.js:204-220 | three pending records, the second rejected by the endpoint: the first and third become synced, only the second stays pending, the count is 2, and a retry is registered |
| Sync.OnEvent | public/sw.js:198-226 | a pass runs iff the event is the `sync-entries` sync or the `try-sync-now` message |
| Notifications.OrElse | public/sw.js:238-244 | `value \|\| fallback` gives the value when it is a non-empty string, else the fallback |
| Notifications.Build | public/sw.js:238-246 | the notification's title, body and URL are never empty, and the icon and badge are the 192-pixel icon |
| Notifications.PushNotificationAsWritten | public/sw.js:230-249 | the handler as written shows no notification iff the payload is the JSON `null` |
| Notifications.NullPayloadDropped | public/sw.js:231-238 | a push whose payload is `null` shows nothing |
| Notifications.PushNotification | public/sw.js:230-249 | every push shows a notification with non-empty title, body and URL. A malformed payload gives the `PWA` title with the raw text as body. Object fields override the defaults. A missing, `null` or non-object payload gives all defaults |
| Notifications.CorrectionOnlyAffectsNull | public/sw.js:230-249 | on every payload except `null` the corrected handler shows what the handler as written shows |
| Notifications.ClickTarget | public/sw.js:253 | the click target is never empty |
| Notifications.FirstShowing | public/sw.js:257 | the search finds the first client showing the path, and finds none iff no client shows it |
| Notifications.OnNotificationClick | public/sw.js:251-261 | a window opens at the target iff no client shows it; otherwise the first such client is focused |
| Notifications.ClickFocusesPageOnPushedUrl | public/sw.js:244-258 | clicking a pushed notification focuses a page already on its URL rather than opening another |
| Base64Url.StdValue | src/push.ts:5-6 | a standard-alphabet digit reads back to the value it spells |
| Base64Url.StdCharValue | src/push.ts:5-6 | every digit value has a standard digit that reads back to it |
| Base64Url.PaddingLength | src/push.ts:4 | the padding is at most 3 characters, makes the length a multiple of 4, and is empty iff the length already is one |
| Base64Url.Repeat | src/push.ts:4 | `'='.repeat(n)` is n copies of `=` |
| Base64Url.Pad | src/push.ts:4-5 | padding keeps the key as a prefix, adds at most 3 `=`, gives a multiple of 4, and changes nothing when the length already is one |
| Base64Url.ReplaceAll | src/push.ts:5 | a global replace changes exactly the occurrences of the character |
| Base64Url.ToStandardAlphabet | src/push.ts:5 | `-` becomes `+`, `_` becomes `/`, and every other character is kept |
| Base64Url.StripPadding | src/push.ts:6 | only an input whose length is a multiple of four loses anything. At most two characters go, and only `=` ones. A padded input keeps no trailing `=` unless it had three or more |
| Base64Url.DecodeSextets | src/push.ts:6 | n digits decode to 3n/4 bytes, rounded down |
| Base64Url.Atob | src/push.ts:6 | `atob` fails iff the unpadded length leaves one digit over or a character is outside the standard alphabet; every decoded character is below 256 |
| Base64Url.CharCodes | src/push.ts:7-8 | the output holds each character's code at the same index |
| Base64Url.Base64UrlToBytes | src/push.ts:3-10 | the conversion succeeds iff `atob` accepts the padded, translated key, and then yields `atob`'s character codes |
| Base64Url.DecodeEncodeSextets | src/push.ts:6 | decoding the digits of any bytes gives the bytes back |
| Base64Url.ToStandardOfUrlDigits | src/push.ts:5 | translating URL-safe digits and padding gives the standard digits of the same values |
| Base64Url.StripStdPadding | src/push.ts:4-6 | standard digits plus at most two `=` lose exactly the `=` |
| Base64Url.StdValuesOfDigits | src/push.ts:6 | reading the standard digits of values gives the values back |
| Base64Url.AtobOfStdDigits | src/push.ts:4-6 | `atob` accepts standard digits padded to a multiple of 4 and yields their bytes |
| Base64Url.RoundTrip | src/push.ts:3-10 | for any bytes, decoding their unpadded base64url encoding (section 5 of RFC 4648) gives the bytes back |

## Left out

- Base64Url.Atob: does not strip ASCII whitespace, which forgiving-base64 removes first. The key is a constant without whitespace.
- CacheStorage.Put: does not model the Cache API rejecting a put, such as a 206 response, a `Vary: *` header or a non-GET request. Without that the strategies' unawaited puts always land.
- CacheStorage.Install: counts any fetched 2xx response as a success, but `addAll` also rejects a 206 response or a `Vary: *` header; install then fails and stores nothing.
- Strategies.CacheFirst: the put is not awaited in the source and lands after the reply. The model applies it in the same step, so there is no interleaving with other requests.
- Strategies.StaleWhileRevalidate: the revalidating fetch and its put complete after the cached copy is served. The model applies them in the same step.
- Strategies.NetworkFirst: the put of a fetched response is not awaited in the source and lands after the reply. The model applies it in the same step, so there is no interleaving with other requests.
- Router.Route: URL parsing (`new URL(req.url)`) is not modelled; a request carries its already-parsed origin, hostname and pathname.
- EntryStore.GetDb: two overlapping first calls can each open the database, because `_db` is set only after the await. The model serialises calls.
- EntryStore.PendingEntries: the request error path (`onerror` resolving to `[]`) and transaction errors in `markAsSynced` are not modelled; IndexedDB operations always succeed here.
- Notifications.PushNotification: fields that are not strings are not modelled: a numeric title, an object as body, and so on.
- Notifications.PushNotificationAsWritten: the `'Mensaje'` body in the `catch` is unreachable, because `json()` can only throw when data is present. Only the present-data branch is modelled.
- Sync.SyncEntries: the clients are notified, and the re-registration requested, by a boolean and a count. Message delivery, client enumeration and a throwing `register` are I/O.
- The `skipWaiting` and `clients.claim` calls, `notification.close()`, and the empty `pushsubscriptionchange` handler have no observable effect in this model.
- The opening of the worker's database (`openIDB`, its upgrade callback and `db.close`) is folded into the store model; the object store and its index are assumed to exist.
- The page UI, the subscription, permission and unsubscription helpers of `src/push.ts`, the push-sending script and the build configuration are outside this core.
- Concurrency between the page and the worker sharing the store, and between overlapping sync passes, is not modelled; each operation is atomic.
- `Date.now()` and the HTTP endpoint are parameters; floating-point times are modelled as integers.

## Findings

| source | as written | input that shows it | evidently intended | confidence | as-written member | corrected member |
|---|---|---|---|---|---|---|
| public/sw.js:231-238 | `data = event.data.json()` succeeds with `null` for the payload text `null`. The next read, `data.title`, throws a TypeError outside the `try`, so no notification is shown | a push whose payload text is `null` | treat `null` like a payload without fields and show the default notification | not executed | Notifications.PushNotificationAsWritten | Notifications.PushNotification |

=== FILE: base64url.dfy ===
/**
 * `base64UrlToUint8Array`: turn a key written in the URL-safe base64
 * alphabet (section 5 of RFC 4648), usually without padding, into bytes by
 * padding it, mapping it to the standard alphabet (section 4 of RFC 4648)
 * and decoding it with `atob`.
 */
module Base64Url {
  import opened Common

  type Byte = x: int | 0 <= x < 256

  /** A base64 digit value. */
  type Sextet = x: int | 0 <= x < 64

  /** The digit of value `v` in the standard alphabet. */
  function StdChar(v: Sextet): char
  {
    if v < 26 then ('A' as int + v) as char
    else if v < 52 then ('a' as int + (v - 26)) as char
    else if v < 62 then ('0' as int + (v - 52)) as char
    else if v == 62 then '+'
    else '/'
  }

  /** The digit of value `v` in the URL and filename safe alphabet. */
  function UrlChar(v: Sextet): char
  {
    if v == 62 then '-' else if v == 63 then '_' else StdChar(v)
  }

  predicate IsStdChar(c: char)
  {
    ('A' <= c <= 'Z') || ('a' <= c <= 'z') || ('0' <= c <= '9') || c == '+' || c == '/'
  }

  /** The value of a standard-alphabet digit. */
  function StdValue(c: char): (v: Sextet)
    requires IsStdChar(c)
    ensures StdChar(v) == c
  {
    if 'A' <= c <= 'Z' then c as int - 'A' as int
    else if 'a' <= c <= 'z' then c as int - 'a' as int + 26
    else if '0' <= c <= '9' then c as int - '0' as int + 52
    else if c == '+' then 62
    else 63
  }

  /** Every value has a standard digit, and reading the digit back gives the value. */
  lemma StdCharValue(v: Sextet)
    ensures IsStdChar(StdChar(v)) && StdValue(StdChar(v)) == v
  {
  }

  /** The number of `=` appended: `(4 - len % 4) % 4`. */
  function PaddingLength(len: nat): (n: nat)
    ensures n <= 3
    ensures (len + n) % 4 == 0
    ensures len % 4 == 0 <==> n == 0
  {
    (4 - len % 4) % 4
  }

  function Repeat(c: char, n: nat): (s: string)
    ensures |s| == n
    ensures forall i :: 0 <= i < n ==> s[i] == c
  {
    if n == 0 then [] else [c] + Repeat(c, n - 1)
  }

  /** `s + '='.repeat(padding)`: the shortest extension of `s` by `=` whose length is a multiple of 4. */
  function Pad(s: string): (r: string)
    ensures |r| % 4 == 0
    ensures |s| <= |r| <= |s| + 3
    ensures r[..|s|] == s
    ensures forall i :: |s| <= i < |r| ==> r[i] == '='
    ensures |s| % 4 == 0 ==> r == s
  {
    s + Repeat('=', PaddingLength(|s|))
  }

  /** `s.replace(/from/g, to)` for single characters. */
  function ReplaceAll(s: string, from: char, to: char): (r: string)
    ensures |r| == |s|
    ensures forall i :: 0 <= i < |s| ==> r[i] == if s[i] == from then to else s[i]
  {
    if |s| == 0 then [] else [if s[0] == from then to else s[0]] + ReplaceAll(s[1..], from, to)
  }

  /** The two replacements that map the URL-safe alphabet onto the standard one. */
  function ToStandardAlphabet(s: string): (r: string)
    ensures |r| == |s|
    ensures forall i :: 0 <= i < |s| ==>
              r[i] == if s[i] == '-' then '+' else if s[i] == '_' then '/' else s[i]
  {
    ReplaceAll(ReplaceAll(s, '-', '+'), '_', '/')
  }

  datatype DomException = InvalidCharacterError

  /** Drop one or two trailing `=` from a string whose length is a multiple of 4. */
  function StripPadding(s: string): (r: string)
    ensures |r| <= |s| && r == s[..|r|]
    ensures |s| % 4 != 0 ==> r == s
    ensures |s| - 2 <= |r|
    ensures forall i :: |r| <= i < |s| ==> s[i] == '='
    ensures |s| % 4 == 0 && |s| - 2 < |r| && |r| > 0 ==> r[|r| - 1] != '='
  {
    if |s| % 4 == 0 && |s| >= 2 && s[|s| - 2] == '=' && s[|s| - 1] == '=' then s[..|s| - 2]
    else if |s| % 4 == 0 && |s| >= 1 && s[|s| - 1] == '=' then s[..|s| - 1]
    else s
  }

  /** The bytes of one group of digit values. */
  function FirstByte(c0: Sextet, c1: Sextet): Byte { (c0 as int) * 4 + (c1 as int) / 16 }
  function SecondByte(c1: Sextet, c2: Sextet): Byte { ((c1 as int) % 16) * 16 + (c2 as int) / 4 }
  function ThirdByte(c2: Sextet, c3: Sextet): Byte { ((c2 as int) % 4) * 64 + (c3 as int) }

  /** The bytes spelled by standard-alphabet digit values, 4 digits per 3 bytes; leftover bits are dropped. */
  function DecodeSextets(v: seq<Sextet>): (b: seq<Byte>)
    requires |v| % 4 != 1
    ensures |b| == |v| * 3 / 4
  {
    if |v| == 0 then []
    else if |v| == 2 then [FirstByte(v[0], v[1])]
    else if |v| == 3 then [FirstByte(v[0], v[1]), SecondByte(v[1], v[2])]
    else [FirstByte(v[0], v[1]), SecondByte(v[1], v[2]), ThirdByte(v[2], v[3])] + DecodeSextets(v[4..])
  }

  /** The digit values of a string of standard digits. */
  function StdValues(s: string): (v: seq<Sextet>)
    requires forall i :: 0 <= i < |s| ==> IsStdChar(s[i])
    ensures |v| == |s|
    ensures forall i :: 0 <= i < |s| ==> StdChar(v[i]) == s[i]
  {
    seq(|s|, i requires 0 <= i < |s| => StdValue(s[i]))
  }

  /**
   * `atob`: the forgiving base64 decode. It drops the padding, fails on a
   * length that leaves one digit over or on a character outside the standard
   * alphabet, and otherwise returns one character per decoded byte.
   */
  function Atob(s: string): (r: Result<string, DomException>)
    ensures r.Ok? ==> forall i :: 0 <= i < |r.value| ==> r.value[i] as int < 256
    ensures r.Err? <==> |StripPadding(s)| % 4 == 1 || exists i :: 0 <= i < |StripPadding(s)| && !IsStdChar(StripPadding(s)[i])
  {
    var t := StripPadding(s);
    if |t| % 4 == 1 || exists i :: 0 <= i < |t| && !IsStdChar(t[i]) then Err(InvalidCharacterError)
    else
      var bytes := DecodeSextets(StdValues(t));
      Ok(seq(|bytes|, i requires 0 <= i < |bytes| => bytes[i] as char))
  }

  /** The byte values of a string whose characters all have codes below 256. */
  function CharCodes(raw: string): (out: seq<Byte>)
    requires forall i :: 0 <= i < |raw| ==> raw[i] as int < 256
    ensures |out| == |raw|
    ensures forall i :: 0 <= i < |raw| ==> out[i] == raw[i] as int
  {
    seq(|raw|, i requires 0 <= i < |raw| => raw[i] as int)
  }

  /** `base64UrlToUint8Array(base64Url)`; `atob`'s exception becomes an error. */
  function Base64UrlToBytes(base64Url: string): (r: Result<seq<Byte>, DomException>)
    ensures r.Ok? <==> Atob(ToStandardAlphabet(Pad(base64Url))).Ok?
    ensures r.Ok? ==> var raw := Atob(ToStandardAlphabet(Pad(base64Url))).value;
                      |r.value| == |raw| && forall i :: 0 <= i < |raw| ==> r.value[i] == raw[i] as int
  {
    match Atob(ToStandardAlphabet(Pad(base64Url)))
    case Ok(raw) => Ok(CharCodes(raw))
    case Err(e) => Err(e)
  }

  /** Three bytes as four digit values (section 4 of RFC 4648, figure of the 24-bit group). */
  function EncodeSextets(b: seq<Byte>): (v: seq<Sextet>)
    ensures |v| % 4 != 1
    ensures |v| == (|b| * 4 + 2) / 3
  {
    if |b| == 0 then []
    else if |b| == 1 then [b[0] / 4, (b[0] % 4) * 16]
    else if |b| == 2 then [b[0] / 4, (b[0] % 4) * 16 + b[1] / 16, (b[1] % 16) * 4]
    else
      [b[0] / 4, (b[0] % 4) * 16 + b[1] / 16, (b[1] % 16) * 4 + b[2] / 64, b[2] % 64] + EncodeSextets(b[3..])
  }

  /** The base64url encoding of section 5 of RFC 4648, with the padding omitted. */
  function EncodeUrl(b: seq<Byte>): (s: string)
    ensures |s| % 4 != 1
  {
    var v := EncodeSextets(b);
    seq(|v|, i requires 0 <= i < |v| => UrlChar(v[i]))
  }

  /** Decoding the digits of bytes gives the bytes back. */
  lemma {:induction false} DecodeEncodeSextets(b: seq<Byte>)
    ensures DecodeSextets(EncodeSextets(b)) == b
  {
    if |b| >= 3 {
      var v := EncodeSextets(b);
      DecodeEncodeSextets(b[3..]);
      assert v[4..] == EncodeSextets(b[3..]);
      assert b == b[..3] + b[3..];
    }
  }

  /** Mapping URL-safe digits to the standard alphabet gives the standard digits of the same values. */
  lemma ToStandardOfUrlDigits(v: seq<Sextet>, pad: nat)
    ensures var url := seq(|v|, i requires 0 <= i < |v| => UrlChar(v[i]));
            ToStandardAlphabet(url + Repeat('=', pad)) == StdDigits(v) + Repeat('=', pad)
  {
  }

  /** The standard digits of a sequence of values. */
  function StdDigits(v: seq<Sextet>): (s: string)
    ensures |s| == |v|
    ensures forall i :: 0 <= i < |v| ==> s[i] == StdChar(v[i])
  {
    seq(|v|, i requires 0 <= i < |v| => StdChar(v[i]))
  }

  /** Standard digits followed by at most two `=` lose exactly the `=` when the padding is stripped. */
  lemma StripStdPadding(v: seq<Sextet>, pad: nat)
    requires (|v| + pad) % 4 == 0 && pad <= 2
    ensures StripPadding(StdDigits(v) + Repeat('=', pad)) == StdDigits(v)
  {
  }

  /** Reading the standard digits of values gives the values back. */
  lemma StdValuesOfDigits(v: seq<Sextet>)
    ensures forall i :: 0 <= i < |v| ==> IsStdChar(StdDigits(v)[i])
    ensures StdValues(StdDigits(v)) == v
  {
  }

  /** Decoding the standard digits of values, with at most two `=`, gives back the values' bytes. */
  lemma AtobOfStdDigits(v: seq<Sextet>, pad: nat)
    requires |v| % 4 != 1
    requires (|v| + pad) % 4 == 0 && pad <= 2
    ensures Atob(StdDigits(v) + Repeat('=', pad)).Ok?
    ensures CharCodes(Atob(StdDigits(v) + Repeat('=', pad)).value) == DecodeSextets(v)
  {
    StripStdPadding(v, pad);
    StdValuesOfDigits(v);
  }

  /** Decoding the unpadded base64url encoding of any bytes gives the bytes back. */
  lemma RoundTrip(b: seq<Byte>)
    ensures Base64UrlToBytes(EncodeUrl(b)) == Ok(b)
  {
    var v := EncodeSextets(b);
    var url := EncodeUrl(b);
    var pad := PaddingLength(|url|);
    assert pad <= 2;
    assert Pad(url) == url + Repeat('=', pad);
    ToStandardOfUrlDigits(v, pad);
    AtobOfStdDigits(v, pad);
    DecodeEncodeSextets(b);
  }
}

=== FILE: cache_storage.dfy ===
/**
 * The origin's Cache Storage: named caches (partitions) kept in creation order.
 * `caches.match` is global: it answers from the first cache, in creation
 * order, that holds the key, whatever cache a strategy later writes to.
 */
module CacheStorage {
  import opened Common
  import opened Http
  import opened Config

  /** One named cache, mapping request URLs to stored responses. */
  datatype Partition = Partition(name: string, entries: map<string, Response>)

  /** All caches of the origin, in creation order. */
  type Caches = seq<Partition>

  /** `caches.keys()`: the cache names in creation order. */
  function Names(c: Caches): (ns: seq<string>)
    ensures |ns| == |c|
    ensures forall i :: 0 <= i < |c| ==> ns[i] == c[i].name
  {
    if |c| == 0 then [] else [c[0].name] + Names(c[1..])
  }

  /** Cache names are unique. */
  predicate WellFormed(c: Caches)
  {
    forall i, j :: 0 <= i < j < |c| ==> c[i].name != c[j].name
  }

  /** The contents of the cache called `name`, if it exists. */
  function Lookup(c: Caches, name: string): (r: Option<map<string, Response>>)
    ensures r.Some? ==> Partition(name, r.value) in c
    ensures r.None? <==> name !in Names(c)
  {
    if |c| == 0 then None
    else if c[0].name == name then Some(c[0].entries)
    else
      var r := Lookup(c[1..], name);
      assert Names(c) == [c[0].name] + Names(c[1..]);
      r
  }

  /** The contents of the cache called `name`, empty when it does not exist. */
  function Contents(c: Caches, name: string): map<string, Response>
  {
    match Lookup(c, name)
    case Some(m) => m
    case None => map[]
  }

  /** `caches.match(key)`: the response stored under `key` in the first cache that holds it. */
  function Match(c: Caches, key: string): (r: Option<Response>)
    ensures r.None? <==> forall i :: 0 <= i < |c| ==> key !in c[i].entries
    ensures r.Some? ==> exists i :: 0 <= i < |c| && key in c[i].entries && c[i].entries[key] == r.value
                                    && forall j :: 0 <= j < i ==> key !in c[j].entries
  {
    if |c| == 0 then None
    else if key in c[0].entries then Some(c[0].entries[key])
    else
      var r := Match(c[1..], key);
      assert forall i :: 1 <= i < |c| ==> c[i] == c[1..][i - 1];
      r
  }

  /** `cache.put(key, resp)` on the cache called `name` (opened, so created, when absent). */
  function Put(c: Caches, name: string, key: string, resp: Response): (r: Caches)
    ensures name in Names(c) ==> |r| == |c|
    ensures name !in Names(c) ==> |r| == |c| + 1 && r[|c|] == Partition(name, map[key := resp])
    ensures forall i :: 0 <= i < |c| ==> r[i].name == c[i].name
    ensures forall i :: 0 <= i < |c| && c[i].name != name ==> r[i] == c[i]
  {
    if |c| == 0 then [Partition(name, map[key := resp])]
    else if c[0].name == name then [c[0].(entries := c[0].entries[key := resp])] + c[1..]
    else
      var rest := Put(c[1..], name, key, resp);
      [c[0]] + rest
  }

  /** A put stores the response under the key in the named cache and changes no other cache. */
  lemma {:induction false} PutContents(c: Caches, name: string, key: string, resp: Response)
    ensures Contents(Put(c, name, key, resp), name) == Contents(c, name)[key := resp]
    ensures forall n :: n != name ==> Lookup(Put(c, name, key, resp), n) == Lookup(c, n)
    ensures name in Names(Put(c, name, key, resp))
  {
    if |c| > 0 && c[0].name != name {
      PutContents(c[1..], name, key, resp);
      var r := Put(c, name, key, resp);
      assert r[1..] == Put(c[1..], name, key, resp);
      assert Names(r) == [r[0].name] + Names(r[1..]);
    }
  }

  /** A put keeps cache names unique. */
  lemma PutWellFormed(c: Caches, name: string, key: string, resp: Response)
    requires WellFormed(c)
    ensures WellFormed(Put(c, name, key, resp))
  {
    var r := Put(c, name, key, resp);
    if name !in Names(c) {
      forall i | 0 <= i < |c| ensures r[i].name != name {
        assert Names(c)[i] == c[i].name;
      }
    }
  }

  /** After a put of `key`, every other key matches exactly as before. */
  lemma {:induction false} MatchPutOther(c: Caches, name: string, key: string, resp: Response, other: string)
    requires other != key
    ensures Match(Put(c, name, key, resp), other) == Match(c, other)
  {
    if |c| > 0 && c[0].name != name {
      MatchPutOther(c[1..], name, key, resp, other);
    }
  }

  /** A put of `key` leaves what every other key matches unchanged. */
  lemma MatchPutOthers(c: Caches, name: string, key: string, resp: Response)
    ensures forall k :: k != key ==> Match(Put(c, name, key, resp), k) == Match(c, k)
  {
    forall k | k != key {
      MatchPutOther(c, name, key, resp, k);
    }
  }

  /** A key that no cache held is found, with the stored response, right after it is put. */
  lemma {:induction false} MatchPutFresh(c: Caches, name: string, key: string, resp: Response)
    requires Match(c, key).None?
    ensures Match(Put(c, name, key, resp), key) == Some(resp)
  {
    if |c| > 0 && c[0].name != name {
      MatchPutFresh(c[1..], name, key, resp);
    }
  }

  /** When no other cache holds `key`, a put of `key` makes it match the new response. */
  lemma {:induction false} MatchPutOwned(c: Caches, name: string, key: string, resp: Response)
    requires forall i :: 0 <= i < |c| && c[i].name != name ==> key !in c[i].entries
    ensures Match(Put(c, name, key, resp), key) == Some(resp)
  {
    if |c| > 0 && c[0].name != name {
      assert forall i :: 0 <= i < |c[1..]| ==> c[1..][i] == c[i + 1];
      MatchPutOwned(c[1..], name, key, resp);
    }
  }

  /** A put of `key` always leaves `key` matchable, though possibly from an older cache. */
  lemma {:induction false} MatchAfterPut(c: Caches, name: string, key: string, resp: Response)
    ensures Match(Put(c, name, key, resp), key).Some?
  {
    if |c| > 0 && c[0].name != name && key !in c[0].entries {
      MatchAfterPut(c[1..], name, key, resp);
    }
  }

  /** `r` is `c` with some elements left out: what is kept keeps its order. */
  predicate Subsequence(r: Caches, c: Caches)
  {
    if |r| == 0 then true
    else if |c| == 0 then false
    else if r[0] == c[0] then Subsequence(r[1..], c[1..])
    else Subsequence(r, c[1..])
  }

  /** Every element of a subsequence sits somewhere in the sequence. */
  lemma {:induction false} SubsequenceMember(r: Caches, c: Caches, k: nat) returns (a: nat)
    requires Subsequence(r, c)
    requires k < |r|
    ensures a < |c| && r[k] == c[a]
  {
    if r[0] == c[0] && k == 0 {
      a := 0;
    } else if r[0] == c[0] {
      var a' := SubsequenceMember(r[1..], c[1..], k - 1);
      a := a' + 1;
    } else {
      var a' := SubsequenceMember(r, c[1..], k);
      a := a' + 1;
    }
  }

  /** Two elements of a subsequence appear in the sequence in the same order. */
  lemma {:induction false} SubsequenceOrder(r: Caches, c: Caches, i: nat, j: nat) returns (a: nat, b: nat)
    requires Subsequence(r, c)
    requires i < j < |r|
    ensures a < b < |c| && r[i] == c[a] && r[j] == c[b]
  {
    if r[0] == c[0] && i == 0 {
      var b' := SubsequenceMember(r[1..], c[1..], j - 1);
      a, b := 0, b' + 1;
    } else if r[0] == c[0] {
      var a', b' := SubsequenceOrder(r[1..], c[1..], i - 1, j - 1);
      a, b := a' + 1, b' + 1;
    } else {
      var a', b' := SubsequenceOrder(r, c[1..], i, j);
      a, b := a' + 1, b' + 1;
    }
  }

  /** No cache outside `allowed` holds `key`. */
  predicate OnlyAllowedHold(c: Caches, allowed: seq<string>, key: string)
  {
    forall i :: 0 <= i < |c| && c[i].name !in allowed ==> key !in c[i].entries
  }

  /**
   * The caches whose names are in `allowed`, in their original order; the
   * others are deleted. A key that only allowed caches hold matches as before.
   */
  function Retain(c: Caches, allowed: seq<string>): (r: Caches)
    ensures |r| <= |c|
    ensures forall i :: 0 <= i < |r| ==> r[i] in c && r[i].name in allowed
    ensures forall i :: 0 <= i < |c| && c[i].name in allowed ==> c[i] in r
    ensures Subsequence(r, c)
    ensures forall key :: OnlyAllowedHold(c, allowed, key) ==> Match(r, key) == Match(c, key)
    ensures WellFormed(c) ==> WellFormed(r)
  {
    if |c| == 0 then []
    else
      var rest := Retain(c[1..], allowed);
      RetainStepMembers(c, allowed, rest);
      RetainStep(c, allowed, rest);
      if c[0].name in allowed then [c[0]] + rest else rest
  }

  /** One step of `Retain`: keeping or dropping the first cache keeps the result an ordered selection of the allowed caches. */
  lemma RetainStepMembers(c: Caches, allowed: seq<string>, rest: Caches)
    requires |c| > 0
    requires |rest| <= |c| - 1
    requires forall i :: 0 <= i < |rest| ==> rest[i] in c[1..] && rest[i].name in allowed
    requires forall i :: 0 <= i < |c| - 1 && c[1..][i].name in allowed ==> c[1..][i] in rest
    requires Subsequence(rest, c[1..])
    ensures var r := if c[0].name in allowed then [c[0]] + rest else rest;
            && |r| <= |c|
            && (forall i :: 0 <= i < |r| ==> r[i] in c && r[i].name in allowed)
            && (forall i :: 0 <= i < |c| && c[i].name in allowed ==> c[i] in r)
            && Subsequence(r, c)
  {
    assert forall i :: 1 <= i < |c| ==> c[i] == c[1..][i - 1];
  }

  /** One step of `Retain`: keeping or dropping the first cache preserves matches and unique names. */
  lemma RetainStep(c: Caches, allowed: seq<string>, rest: Caches)
    requires |c| > 0
    requires forall i :: 0 <= i < |rest| ==> rest[i] in c[1..]
    requires forall key :: OnlyAllowedHold(c[1..], allowed, key) ==> Match(rest, key) == Match(c[1..], key)
    requires WellFormed(c[1..]) ==> WellFormed(rest)
    ensures var r := if c[0].name in allowed then [c[0]] + rest else rest;
            && (forall key :: OnlyAllowedHold(c, allowed, key) ==> Match(r, key) == Match(c, key))
            && (WellFormed(c) ==> WellFormed(r))
  {
    var tail := c[1..];
    var r := if c[0].name in allowed then [c[0]] + rest else rest;
    forall key | OnlyAllowedHold(c, allowed, key) ensures Match(r, key) == Match(c, key) {
      assert OnlyAllowedHold(tail, allowed, key) by {
        forall i | 0 <= i < |tail| && tail[i].name !in allowed ensures key !in tail[i].entries {
          assert tail[i] == c[i + 1];
        }
      }
      if c[0].name in allowed {
        assert r[1..] == rest;
      } else {
        assert key !in c[0].entries;
      }
    }
    if WellFormed(c) {
      assert WellFormed(tail) by {
        forall a, b | 0 <= a < b < |tail| ensures tail[a].name != tail[b].name {
          assert tail[a] == c[a + 1] && tail[b] == c[b + 1];
        }
      }
      if c[0].name in allowed {
        forall a, b | 0 <= a < b < |r| ensures r[a].name != r[b].name {
          assert r[b] == rest[b - 1] && rest[b - 1] in tail;
          var j :| 0 <= j < |tail| && tail[j] == r[b];
          assert c[j + 1] == r[b];
          if a > 0 { assert r[a] == rest[a - 1]; }
        }
      }
    }
  }

  /** The `activate` handler: delete every cache that is not one of the current deployment's. */
  function Activate(c: Caches): (r: Caches)
    ensures forall i :: 0 <= i < |r| ==> r[i] in c && r[i].name in CurrentCaches
    ensures forall i :: 0 <= i < |c| && c[i].name in CurrentCaches ==> c[i] in r
    ensures Subsequence(r, c)
    ensures forall key :: OnlyAllowedHold(c, CurrentCaches, key) ==> Match(r, key) == Match(c, key)
    ensures WellFormed(c) ==> WellFormed(r)
  {
    Retain(c, CurrentCaches)
  }

  /** Activation keeps exactly the allowed names that existed, and creates none. */
  lemma ActivateNames(c: Caches)
    ensures (set n | n in Names(Activate(c))) == (set n | n in Names(c) && n in CurrentCaches)
  {
  }

  /** Caches of an older deployment are deleted and the current ones kept; a missing current cache is not created. */
  lemma ActivateDropsOldDeployment(s3: map<string, Response>, r3: map<string, Response>,
                                   i2: map<string, Response>, s2: map<string, Response>)
    ensures Activate([Partition("static-v3", s3), Partition("runtime-v3", r3), Partition("images-v2", i2),
                      Partition("static-v2", s2)])
            == [Partition("static-v3", s3), Partition("runtime-v3", r3)]
  {
    var c := [Partition("static-v3", s3), Partition("runtime-v3", r3), Partition("images-v2", i2),
              Partition("static-v2", s2)];
    assert "images-v2" !in CurrentCaches by {
      assert "images-v2"[8] != "images-v3"[8];
    }
    assert "static-v2" !in CurrentCaches by {
      assert "static-v2"[8] != "static-v3"[8];
    }
    assert c[3..][1..] == [];
    assert Retain(c[3..], CurrentCaches) == [];
    assert c[2..][1..] == c[3..];
    assert Retain(c[2..], CurrentCaches) == [];
    assert c[1..][1..] == c[2..];
    assert Retain(c[1..], CurrentCaches) == [c[1]];
  }

  /** Activation leaves each surviving cache with exactly the contents it had. */
  lemma ActivateKeepsContents(c: Caches, name: string)
    requires WellFormed(c)
    requires name in CurrentCaches
    ensures Contents(Activate(c), name) == Contents(c, name)
  {
  }

  /** The outcome of the `install` handler: the caches afterwards, and whether installation succeeded. */
  datatype InstallOutcome = Installed(caches: Caches) | InstallFailed(caches: Caches)

  /** The URLs of the app shell, resolved against the worker's origin. */
  function ShellKeys(origin: string): (keys: seq<string>)
    ensures |keys| == |AppShell|
    ensures forall i :: 0 <= i < |AppShell| ==> keys[i] == origin + AppShell[i]
    ensures forall i, j :: 0 <= i < j < |keys| ==> keys[i] != keys[j]
    ensures origin + OfflineUrl in keys
  {
    var keys := seq(|AppShell|, i requires 0 <= i < |AppShell| => origin + AppShell[i]);
    ShellPathsDistinct();
    forall i, j | 0 <= i < j < |keys| ensures keys[i] != keys[j] {
      PrefixCancel(origin, AppShell[i], AppShell[j]);
    }
    assert keys[2] == origin + OfflineUrl;
    keys
  }

  /** No path is listed twice in the app shell. */
  lemma ShellPathsDistinct()
    ensures forall i, j :: 0 <= i < j < |AppShell| ==> AppShell[i] != AppShell[j]
  {
    assert AppShell[4][12] != AppShell[5][12];
  }

  /** Keys under one origin are equal only when their paths are. */
  lemma PrefixCancel(origin: string, a: string, b: string)
    ensures origin + a == origin + b ==> a == b
  {
    if origin + a == origin + b {
      assert a == (origin + a)[|origin|..];
      assert b == (origin + b)[|origin|..];
    }
  }

  /** Every app-shell URL fetched successfully (resolved, with a 2xx status). */
  predicate ShellFetched(origin: string, net: string -> FetchOutcome)
  {
    forall k :: k in ShellKeys(origin) ==> net(k).Fetched? && IsOk(net(k).response)
  }

  /** The responses of `keys`, keyed by URL. */
  function Responses(keys: seq<string>, net: string -> FetchOutcome): (m: map<string, Response>)
    requires forall k :: k in keys ==> net(k).Fetched?
    ensures forall k :: k in keys ==> k in m && m[k] == net(k).response
    ensures forall k :: k in m ==> k in keys
  {
    map k | k in keys :: net(k).response
  }

  /** The responses of a list of URLs are those of its prefix, updated with its last one. */
  lemma ResponsesSnoc(keys: seq<string>, net: string -> FetchOutcome)
    requires |keys| > 0
    requires forall k :: k in keys ==> net(k).Fetched?
    ensures Responses(keys, net) == Responses(keys[..|keys| - 1], net)[keys[|keys| - 1] := net(keys[|keys| - 1]).response]
  {
  }

  /** Updating a union is updating its right operand. */
  lemma MapUpdateUnion<K, V>(a: map<K, V>, b: map<K, V>, k: K, v: V)
    ensures (a + b)[k := v] == a + b[k := v]
  {
  }

  /** Store the response of every URL of `keys` in the cache `name`. */
  function PutAll(c: Caches, name: string, keys: seq<string>, net: string -> FetchOutcome): (r: Caches)
    requires forall k :: k in keys ==> net(k).Fetched?
    ensures Contents(r, name) == Contents(c, name) + Responses(keys, net)
    ensures forall n :: n != name ==> Lookup(r, n) == Lookup(c, n)
    ensures name in Names(c) ==> name in Names(r)
    decreases |keys|
  {
    if |keys| == 0 then
      assert Responses(keys, net) == map[];
      c
    else
      var last := keys[|keys| - 1];
      var init := keys[..|keys| - 1];
      assert forall k :: k in keys <==> k == last || k in init;
      var c1 := PutAll(c, name, init, net);
      var r := Put(c1, name, last, net(last).response);
      PutContents(c1, name, last, net(last).response);
      ResponsesSnoc(keys, net);
      MapUpdateUnion(Contents(c, name), Responses(init, net), last, net(last).response);
      r
  }

  /**
   * The `install` handler: open the static cache, then `addAll` the app shell,
   * which stores every response or, if any fetch fails or is not 2xx, none.
   */
  function Install(c: Caches, origin: string, net: string -> FetchOutcome): (r: InstallOutcome)
    ensures r.Installed? <==> ShellFetched(origin, net)
    ensures StaticCache in Names(r.caches)
    ensures r.Installed? ==> Contents(r.caches, StaticCache) == Contents(c, StaticCache) + Responses(ShellKeys(origin), net)
    ensures r.InstallFailed? ==> Contents(r.caches, StaticCache) == Contents(c, StaticCache)
    ensures forall n :: n != StaticCache ==> Lookup(r.caches, n) == Lookup(c, n)
  {
    var c0 := if StaticCache in Names(c) then c else c + [Partition(StaticCache, map[])];
    assert StaticCache in Names(c0) && Contents(c0, StaticCache) == Contents(c, StaticCache)
           && forall n :: n != StaticCache ==> Lookup(c0, n) == Lookup(c, n) by {
      if StaticCache !in Names(c) {
        LookupAppend(c, Partition(StaticCache, map[]));
      }
    }
    if ShellFetched(origin, net) then
      Installed(PutAll(c0, StaticCache, ShellKeys(origin), net))
    else
      InstallFailed(c0)
  }

  /** When every app-shell fetch succeeds, install stores each asset in the static cache. */
  lemma InstallStoresShellAsset(c: Caches, origin: string, net: string -> FetchOutcome, i: nat)
    requires ShellFetched(origin, net)
    requires i < |AppShell|
    ensures ShellKeys(origin)[i] in Contents(Install(c, origin, net).caches, StaticCache)
  {
  }

  /** Appending a new cache changes lookups of its own name only. */
  lemma {:induction false} LookupAppend(c: Caches, p: Partition)
    requires p.name !in Names(c)
    ensures Lookup(c + [p], p.name) == Some(p.entries)
    ensures forall n :: n != p.name ==> Lookup(c + [p], n) == Lookup(c, n)
  {
    if |c| > 0 {
      assert (c + [p])[1..] == c[1..] + [p];
      assert Names(c) == [c[0].name] + Names(c[1..]);
      LookupAppend(c[1..], p);
    }
  }
}

=== FILE: common.dfy ===
/** Small value types shared by every part of the model. */
module Common {

  /** A value that may be absent (JavaScript's `undefined`). */
  datatype Option<+T> = None | Some(value: T)

  /** A computation that either produces a value or fails with an error. */
  datatype Result<+T, +E> = Ok(value: T) | Err(error: E)

  /** `s.startsWith(p)` on strings. */
  predicate StartsWith(s: string, p: string)
  {
    |p| <= |s| && s[..|p|] == p
  }
}

=== FILE: config.dfy ===
/** The worker's fixed configuration: cache names, the app shell and the API allow-list. */
module Config {

  /** Cache names carry the deployment's version, `v3`. */
  const StaticCache: string := "static-v3"
  const RuntimeCache: string := "runtime-v3"
  const ImageCache: string := "images-v3"

  /** The caches the current deployment keeps on activation. */
  const CurrentCaches: seq<string> := [StaticCache, RuntimeCache, ImageCache]

  const OfflineUrl: string := "/offline.html"

  /** The app shell precached at install time, as same-origin paths. */
  const AppShell: seq<string> :=
    ["/", "/index.html", "/offline.html", "/manifest.webmanifest",
     "/icons/icon-192.png", "/icons/icon-512.png"]

  /** Cross-origin hosts whose requests count as API calls. */
  const ApiHosts: seq<string> := ["jsonplaceholder.typicode.com"]

  /** Same-origin path prefix of API calls. */
  const ApiPrefix: string := "/api/"

  /** The tag of the background-sync registration. */
  const SyncTag: string := "sync-entries"

  /** The message a page posts to ask for an immediate sync pass. */
  const TrySyncNow: string := "try-sync-now"
}

=== FILE: entry_store.dfy ===
/**
 * The `entries` object store of the `pwa-db` database, shared by the page
 * and the worker: records keyed by an auto-incremented id, each pending
 * until the sync pass has delivered it.
 */
module EntryStore {
  import opened Common

  datatype Status = Pending | Synced

  /** One stored record; `id` is the key the store assigned. */
  datatype Entry = Entry(id: nat, text: string, createdAt: int, status: Status)

  /** The object store: records by key, and the key generator's next key. */
  datatype Store = Store(records: map<nat, Entry>, nextId: nat)

  /** The largest key the key generator hands out (2^53); past it, generating a key fails. */
  const MaxGeneratedKey: nat := 0x20_0000_0000_0000

  /** A fresh store: no records, and the key generator starts at 1. */
  const Fresh: Store := Store(map[], 1)

  datatype StoreError = ConstraintError

  /** Each record sits under its own id, and every id is below the generator's next key. */
  predicate Valid(s: Store)
  {
    && 1 <= s.nextId
    && forall id :: id in s.records ==> s.records[id].id == id && 1 <= id < s.nextId
  }

  /**
   * `addEntry(text)` with `Date.now()` = `now`: store a pending record under
   * the next generated key and return it with its id.
   */
  function AddEntry(s: Store, text: string, now: int): (r: Result<(Store, Entry), StoreError>)
    ensures r.Ok? <==> s.nextId <= MaxGeneratedKey && s.nextId !in s.records
    ensures Valid(s) && s.nextId <= MaxGeneratedKey ==> r.Ok?
    ensures r.Ok? ==>
              var (after, e) := r.value;
              && e.text == text && e.createdAt == now && e.status == Pending
              && e.id !in s.records
              && after.records == s.records[e.id := e]
              && e.id == s.nextId && after.nextId == s.nextId + 1
    ensures r.Ok? && Valid(s) ==> Valid(r.value.0)
  {
    if s.nextId > MaxGeneratedKey || s.nextId in s.records then Err(ConstraintError)
    else
      var e := Entry(s.nextId, text, now, Pending);
      Ok((Store(s.records[e.id := e], s.nextId + 1), e))
  }

  /** The last key the generator hands out is 2^53 itself; the add after it fails. */
  lemma LastGeneratedKey(text: string, now: int)
    ensures var s := Store(map[], MaxGeneratedKey);
            && AddEntry(s, text, now).Ok?
            && AddEntry(s, text, now).value.1.id == 0x20_0000_0000_0000
            && AddEntry(AddEntry(s, text, now).value.0, text, now).Err?
  {
  }

  /** The store as first created is valid and lists nothing. */
  lemma FreshValid()
    ensures Valid(Fresh)
    ensures ListEntries(Fresh) == []
  {
    InKeyOrderEmpty(Fresh.nextId);
  }

  /** `clearEntries()`: remove every record; the key generator is not reset. */
  function ClearEntries(s: Store): (r: Store)
    ensures r.records == map[]
    ensures r.nextId == s.nextId
    ensures Valid(s) ==> Valid(r)
  {
    Store(map[], s.nextId)
  }

  /** The records with keys below `hi`, in ascending key order (the order of `getAll`). */
  function InKeyOrder(m: map<nat, Entry>, hi: nat): (r: seq<Entry>)
    ensures forall e :: e in r <==> exists id :: id in m && id < hi && m[id] == e
  {
    if hi == 0 then []
    else
      var init := InKeyOrder(m, hi - 1);
      if hi - 1 in m then init + [m[hi - 1]] else init
  }

  /** Ids strictly increase along `s`. */
  predicate IdsIncreasing(s: seq<Entry>)
  {
    forall i, j :: 0 <= i < j < |s| ==> s[i].id < s[j].id
  }

  /** Records read in key order have strictly increasing ids, each below `hi`. */
  lemma {:induction false} InKeyOrderIncreasing(s: Store, hi: nat)
    requires Valid(s)
    ensures IdsIncreasing(InKeyOrder(s.records, hi))
    ensures forall e :: e in InKeyOrder(s.records, hi) ==> e.id < hi
  {
    if hi > 0 {
      InKeyOrderIncreasing(s, hi - 1);
    }
  }

  /** Records read in key order depend only on the records below `hi`. */
  lemma {:induction false} InKeyOrderAgrees(m: map<nat, Entry>, m': map<nat, Entry>, hi: nat)
    requires forall id :: id < hi ==> (id in m <==> id in m') && (id in m ==> m[id] == m'[id])
    ensures InKeyOrder(m, hi) == InKeyOrder(m', hi)
  {
    if hi > 0 {
      InKeyOrderAgrees(m, m', hi - 1);
    }
  }

  /** `a` comes before `b` in the listing: newer first, and by ascending id among equally old ones. */
  predicate Before(a: Entry, b: Entry)
  {
    a.createdAt > b.createdAt || (a.createdAt == b.createdAt && a.id < b.id)
  }

  /** Newest first (non-increasing `createdAt`). */
  predicate NewestFirst(s: seq<Entry>)
  {
    forall i, j :: 0 <= i < j < |s| ==> s[i].createdAt >= s[j].createdAt
  }

  /** Put `e` in front of the first entry that is not newer than it. */
  function InsertNewest(e: Entry, t: seq<Entry>): (r: seq<Entry>)
    ensures multiset(r) == multiset(t) + multiset{e}
    ensures forall x :: x in r <==> x == e || x in t
  {
    if |t| == 0 || e.createdAt >= t[0].createdAt then [e] + t
    else
      assert t == [t[0]] + t[1..];
      [t[0]] + InsertNewest(e, t[1..])
  }

  /**
   * `all.sort((a, b) => b.createdAt - a.createdAt)`: a stable sort, newest
   * first, that keeps equally old entries in their original order.
   */
  function SortNewestFirst(s: seq<Entry>): (r: seq<Entry>)
    ensures multiset(r) == multiset(s)
    ensures forall x :: x in r <==> x in s
  {
    if |s| == 0 then []
    else
      assert s == [s[0]] + s[1..];
      InsertNewest(s[0], SortNewestFirst(s[1..]))
  }

  /** Each entry comes before every later one. */
  predicate Ordered(s: seq<Entry>)
  {
    forall i, j :: 0 <= i < j < |s| ==> Before(s[i], s[j])
  }

  /** An entry that comes before the head of an ordered listing comes before all of it. */
  lemma PrependOrdered(e: Entry, t: seq<Entry>)
    requires Ordered(t)
    requires forall x :: x in t ==> e.id < x.id
    requires |t| == 0 || e.createdAt >= t[0].createdAt
    ensures Ordered([e] + t)
  {
  }

  /** Inserting an entry whose id is below every id of an ordered listing keeps it ordered. */
  lemma {:induction false} InsertNewestOrdered(e: Entry, t: seq<Entry>)
    requires Ordered(t)
    requires forall x :: x in t ==> e.id < x.id
    ensures Ordered(InsertNewest(e, t))
  {
    if |t| == 0 || e.createdAt >= t[0].createdAt {
      PrependOrdered(e, t);
    } else {
      var tail := t[1..];
      assert Ordered(tail) by {
        forall i, j | 0 <= i < j < |tail| ensures Before(tail[i], tail[j]) {
          assert tail[i] == t[i + 1] && tail[j] == t[j + 1];
        }
      }
      assert forall x :: x in tail ==> x in t;
      InsertNewestOrdered(e, tail);
      var rest := InsertNewest(e, tail);
      forall x | x in rest ensures Before(t[0], x) {
        if x != e {
          var k :| 0 <= k < |tail| && tail[k] == x;
          assert t[k + 1] == x;
        }
      }
      OrderedCons(t[0], rest);
    }
  }

  /** An entry that comes before every entry of an ordered listing can head it. */
  lemma OrderedCons(x: Entry, t: seq<Entry>)
    requires Ordered(t)
    requires forall y :: y in t ==> Before(x, y)
    ensures Ordered([x] + t)
  {
  }

  /** Sorting entries given in ascending id order lists them newest first, ties by ascending id. */
  lemma {:induction false} SortNewestFirstOrdered(s: seq<Entry>)
    requires IdsIncreasing(s)
    ensures Ordered(SortNewestFirst(s))
  {
    if |s| > 0 {
      var tail := s[1..];
      assert IdsIncreasing(tail) by {
        forall i, j | 0 <= i < j < |tail| ensures tail[i].id < tail[j].id {
          assert tail[i] == s[i + 1] && tail[j] == s[j + 1];
        }
      }
      SortNewestFirstOrdered(tail);
      var sorted := SortNewestFirst(tail);
      forall x | x in sorted ensures s[0].id < x.id {
        var k :| 0 <= k < |tail| && tail[k] == x;
        assert s[k + 1] == x;
      }
      InsertNewestOrdered(s[0], sorted);
    }
  }

  /** Every stored record, as `getAll` reads it. */
  function AllRecords(s: Store): seq<Entry>
  {
    InKeyOrder(s.records, s.nextId)
  }

  /**
   * `listEntries()`: every stored record exactly once, newest first, and by
   * ascending id among records created at the same instant.
   */
  function ListEntries(s: Store): (r: seq<Entry>)
    requires Valid(s)
    ensures forall e :: e in r <==> e in s.records.Values
    ensures forall i, j :: 0 <= i < j < |r| ==> r[i] != r[j]
    ensures NewestFirst(r)
    ensures forall i, j :: 0 <= i < j < |r| ==> Before(r[i], r[j])
  {
    var all := AllRecords(s);
    InKeyOrderIncreasing(s, s.nextId);
    SortNewestFirstOrdered(all);
    var r := SortNewestFirst(all);
    assert Ordered(r);
    r
  }

  /** Records of one status in ascending id order: the `by-status` index read with `getAll(status)`. */
  function ByStatus(s: Store, status: Status): (r: seq<Entry>)
    requires Valid(s)
    ensures forall e :: e in r <==> e in s.records.Values && e.status == status
    ensures IdsIncreasing(r)
  {
    InKeyOrderIncreasing(s, s.nextId);
    FilterStatus(AllRecords(s), status)
  }

  /** The entries of `s` with the given status, in order. */
  function FilterStatus(s: seq<Entry>, status: Status): (r: seq<Entry>)
    ensures forall e :: e in r <==> e in s && e.status == status
    ensures IdsIncreasing(s) ==> IdsIncreasing(r)
  {
    if |s| == 0 then []
    else
      var tail := s[1..];
      var rest := FilterStatus(tail, status);
      if s[0].status != status then
        assert IdsIncreasing(s) ==> IdsIncreasing(tail);
        rest
      else
        var r := [s[0]] + rest;
        assert IdsIncreasing(s) ==> IdsIncreasing(r) by {
          if IdsIncreasing(s) {
            assert IdsIncreasing(tail);
            forall i, j | 0 <= i < j < |r| ensures r[i].id < r[j].id {
              assert r[j] == rest[j - 1] && r[j] in tail;
              if i > 0 { assert r[i] == rest[i - 1]; }
            }
          }
        }
        r
  }

  /** The worker's `getPendingEntries()`. */
  function PendingEntries(s: Store): (r: seq<Entry>)
    requires Valid(s)
    ensures forall e :: e in r <==> e in s.records.Values && e.status == Pending
    ensures IdsIncreasing(r)
  {
    ByStatus(s, Pending)
  }

  /** Flag one record as synced, when it exists. */
  function MarkOne(s: Store, id: nat): Store
  {
    if id in s.records then Store(s.records[id := s.records[id].(status := Synced)], s.nextId) else s
  }

  /** Flag, one after the other, the records of `ids` that exist. */
  function MarkEach(s: Store, ids: seq<nat>): (r: Store)
    ensures r.nextId == s.nextId
    ensures r.records.Keys == s.records.Keys
    ensures forall id :: id in s.records && id in ids ==> r.records[id] == s.records[id].(status := Synced)
    ensures forall id :: id in s.records && id !in ids ==> r.records[id] == s.records[id]
    decreases |ids|
  {
    if |ids| == 0 then s
    else
      var last := ids[|ids| - 1];
      assert forall id :: id in ids <==> id == last || id in ids[..|ids| - 1];
      MarkOne(MarkEach(s, ids[..|ids| - 1]), last)
  }

  /**
   * The worker's `markAsSynced(ids)`: each listed record that exists becomes
   * synced; ids without a record are skipped; nothing else changes.
   */
  function MarkAsSynced(s: Store, ids: seq<nat>): (r: Store)
    ensures r.nextId == s.nextId
    ensures r.records.Keys == s.records.Keys
    ensures forall id :: id in s.records ==>
              && r.records[id].id == s.records[id].id
              && r.records[id].text == s.records[id].text
              && r.records[id].createdAt == s.records[id].createdAt
              && (r.records[id].status == Synced <==> id in ids || s.records[id].status == Synced)
    ensures Valid(s) ==> Valid(r)
  {
    if |ids| == 0 then s else MarkEach(s, ids)
  }

  /** `after` is a later state of `before`: no record lost, ids and contents fixed, and no synced record pending again. */
  predicate Evolves(before: Store, after: Store)
  {
    && before.records.Keys <= after.records.Keys
    && before.nextId <= after.nextId
    && forall id :: id in before.records ==>
         && after.records[id].id == before.records[id].id
         && after.records[id].text == before.records[id].text
         && after.records[id].createdAt == before.records[id].createdAt
         && (before.records[id].status == Synced ==> after.records[id].status == Synced)
  }

  /** Adding a record keeps every existing one as it was. */
  lemma AddEntryEvolves(s: Store, text: string, now: int)
    requires AddEntry(s, text, now).Ok?
    ensures Evolves(s, AddEntry(s, text, now).value.0)
    ensures forall id :: id in s.records ==> AddEntry(s, text, now).value.0.records[id] == s.records[id]
  {
  }

  /** Marking records synced only moves them forward. */
  lemma MarkAsSyncedEvolves(s: Store, ids: seq<nat>)
    ensures Evolves(s, MarkAsSynced(s, ids))
  {
  }

  /** After `addEntry`, the listing holds exactly the previous records plus the new one. */
  lemma ListAfterAdd(s: Store, text: string, now: int)
    requires Valid(s)
    requires AddEntry(s, text, now).Ok?
    ensures var (after, e) := AddEntry(s, text, now).value;
            multiset(ListEntries(after)) == multiset(ListEntries(s)) + multiset{e}
  {
    var (after, e) := AddEntry(s, text, now).value;
    InKeyOrderAgrees(s.records, after.records, s.nextId);
    assert AllRecords(after) == AllRecords(s) + [e];
  }

  /** After `clearEntries`, the listing is empty. */
  lemma ListAfterClear(s: Store)
    requires Valid(s)
    ensures ListEntries(ClearEntries(s)) == []
  {
    InKeyOrderEmpty(s.nextId);
  }

  /** No records, nothing to read. */
  lemma {:induction false} InKeyOrderEmpty(hi: nat)
    ensures InKeyOrder(map[], hi) == []
  {
    if hi > 0 {
      InKeyOrderEmpty(hi - 1);
    }
  }

  /** A record added after `clearEntries` gets an id no record ever had before the clear. */
  lemma AddAfterClearFreshId(s: Store, text: string, now: int)
    requires Valid(s)
    requires AddEntry(ClearEntries(s), text, now).Ok?
    ensures forall id :: id in s.records ==> id < AddEntry(ClearEntries(s), text, now).value.1.id
  {
  }

  /** The page's cached connection: `getDB` opens the database once and then reuses the handle. */
  datatype Connection = Connection(handle: nat)

  datatype Session = Session(db: Option<Connection>, opens: nat)

  /**
   * `getDB()`; `opening` is what `openDB` would settle to. A failed open is
   * not remembered, so a later call tries again.
   */
  function GetDb(s: Session, opening: Result<Connection, StoreError>): (r: (Session, Result<Connection, StoreError>))
    ensures s.db.Some? ==> r == (s, Ok(s.db.value))
    ensures s.db.None? ==> r.1 == opening && r.0.opens == s.opens + 1
    ensures s.db.None? && opening.Ok? ==> r.0.db == Some(opening.value)
    ensures s.db.None? && opening.Err? ==> r.0.db.None?
  {
    match s.db
    case Some(c) => (s, Ok(c))
    case None =>
      match opening
      case Ok(c) => (Session(Some(c), s.opens + 1), Ok(c))
      case Err(e) => (Session(None, s.opens + 1), Err(e))
  }

  /** Once `getDB` has succeeded, later calls return the same handle and never open again. */
  lemma GetDbIdempotent(s: Session, first: Result<Connection, StoreError>, later: Result<Connection, StoreError>)
    requires GetDb(s, first).1.Ok?
    ensures var (s1, c1) := GetDb(s, first);
            GetDb(s1, later) == (s1, c1)
  {
  }
}

=== FILE: http.dfy ===
/** What the worker sees of the network: responses and the outcome of one `fetch`. */
module Http {

  /** A response; `ErrorResponse` is the value built by `Response.error()`. */
  datatype Response = Response(status: int, body: string) | ErrorResponse

  /** A status in the 2xx range. */
  predicate OkStatus(status: int)
  {
    200 <= status <= 299
  }

  /** `res.ok`: a real response whose status is in the 2xx range. */
  predicate IsOk(r: Response)
  {
    r.Response? && OkStatus(r.status)
  }

  /** The outcome of one `fetch`: it resolves with a response, whatever its status, or it rejects. */
  datatype FetchOutcome = Fetched(response: Response) | FetchFailed
}

=== FILE: notifications.dfy ===
/**
 * The worker's `push` and `notificationclick` handlers: a push payload
 * becomes a notification with defaults for what it lacks, and a click on
 * the notification focuses a page already showing its URL or opens one.
 */
module Notifications {
  import opened Common

  /** A payload field: absent (or `undefined`), or a string. */
  type Field = Option<string>

  /** What `event.data.json()` makes of the payload text. */
  datatype Json =
    | Malformed                                   // `json()` throws
    | Null                                        // the text `null`
    | Object(title: Field, body: Field, url: Field)
    | OtherValue                                  // a number, string, boolean or array: it has none of the fields

  /** `event.data`: absent, or a text together with what parsing it gives. */
  datatype PushData = NoData | Data(text: string, json: Json)

  /** The notification shown: title and the options passed to `showNotification`. */
  datatype Notification = Notification(title: string, body: string, icon: string, badge: string, url: string)

  const DefaultTitle: string := "Notificación"
  const DefaultBody: string := "Tienes un nuevo mensaje"
  const DefaultUrl: string := "/"
  const FallbackTitle: string := "PWA"
  const Icon: string := "/icons/icon-192.png"

  /** `value || fallback` on a string field: an absent or empty value gives the fallback. */
  function OrElse(f: Field, fallback: string): (r: string)
    ensures f.Some? && f.value != "" ==> r == f.value
    ensures f.None? || f.value == "" ==> r == fallback
  {
    match f
    case Some(v) => if v != "" then v else fallback
    case None => fallback
  }

  /** The fields of `data` in the handler: title, body and url as read from the parsed payload. */
  datatype Payload = Payload(title: Field, body: Field, url: Field)

  /** The notification built from the handler's `data` object. */
  function Build(p: Payload): (n: Notification)
    ensures n.title != "" && n.body != "" && n.url != ""
    ensures n.icon == Icon && n.badge == Icon
  {
    Notification(OrElse(p.title, DefaultTitle), OrElse(p.body, DefaultBody), Icon, Icon, OrElse(p.url, DefaultUrl))
  }

  /**
   * The `push` handler as written: `None` when it throws before showing
   * anything, which happens when the payload is the JSON `null`, since
   * reading `data.title` on `null` is a TypeError.
   */
  function PushNotificationAsWritten(d: PushData): (r: Option<Notification>)
    ensures r.None? <==> d.Data? && d.json.Null?
  {
    match d
    case NoData => Some(Build(Payload(None, None, None)))
    case Data(text, json) =>
      match json
      case Malformed => Some(Build(Payload(Some(FallbackTitle), Some(text), None)))
      case Null => None
      case Object(t, b, u) => Some(Build(Payload(t, b, u)))
      case OtherValue => Some(Build(Payload(None, None, None)))
  }

  /** The JSON `null` payload shows no notification. */
  lemma NullPayloadDropped()
    ensures PushNotificationAsWritten(Data("null", Null)).None?
  {
  }

  /**
   * The `push` handler with the intended behaviour: every push shows a
   * notification, and a `null` payload is treated like one without fields.
   */
  function PushNotification(d: PushData): (n: Notification)
    ensures n.title != "" && n.body != "" && n.url != ""
    ensures n.icon == Icon && n.badge == Icon
    ensures d.Data? && d.json.Malformed? ==> n.title == FallbackTitle && n.body == OrElse(Some(d.text), DefaultBody)
    ensures d.Data? && d.json.Malformed? ==> n.url == DefaultUrl
    ensures d.Data? && d.json.Object? ==>
              && n.title == OrElse(d.json.title, DefaultTitle)
              && n.body == OrElse(d.json.body, DefaultBody)
              && n.url == OrElse(d.json.url, DefaultUrl)
    ensures d.NoData? || (d.Data? && (d.json.Null? || d.json.OtherValue?)) ==>
              n == Notification(DefaultTitle, DefaultBody, Icon, Icon, DefaultUrl)
  {
    match d
    case NoData => Build(Payload(None, None, None))
    case Data(text, json) =>
      match json
      case Malformed => Build(Payload(Some(FallbackTitle), Some(text), None))
      case Null => Build(Payload(None, None, None))
      case Object(t, b, u) => Build(Payload(t, b, u))
      case OtherValue => Build(Payload(None, None, None))
  }

  /** The correction changes nothing but the `null` case. */
  lemma CorrectionOnlyAffectsNull(d: PushData)
    requires !(d.Data? && d.json.Null?)
    ensures PushNotificationAsWritten(d) == Some(PushNotification(d))
  {
  }

  /** A page, with the path of the URL it shows. */
  datatype Client = Client(id: nat, pathname: string)

  /** What a click does: focus an existing page, or open a new window at the URL. */
  datatype ClickAction = Focus(client: Client) | OpenWindow(url: string)

  /** `event.notification?.data?.url || '/'`. */
  function ClickTarget(url: Field): (t: string)
    ensures t != ""
  {
    OrElse(url, DefaultUrl)
  }

  /** The index of the first client whose path is `target`. */
  function FirstShowing(clients: seq<Client>, target: string): (i: Option<nat>)
    ensures i.None? <==> forall k :: 0 <= k < |clients| ==> clients[k].pathname != target
    ensures i.Some? ==> i.value < |clients| && clients[i.value].pathname == target
                        && forall k :: 0 <= k < i.value ==> clients[k].pathname != target
  {
    if |clients| == 0 then None
    else if clients[0].pathname == target then Some(0)
    else
      match FirstShowing(clients[1..], target)
      case None => None
      case Some(i) => Some(i + 1)
  }

  /** The `notificationclick` handler over the window clients, in the order `matchAll` lists them. */
  function OnNotificationClick(url: Field, clients: seq<Client>): (a: ClickAction)
    ensures a.OpenWindow? <==> forall k :: 0 <= k < |clients| ==> clients[k].pathname != ClickTarget(url)
    ensures a.OpenWindow? ==> a.url == ClickTarget(url)
    ensures a.Focus? ==> exists i :: 0 <= i < |clients| && a.client == clients[i]
                                     && clients[i].pathname == ClickTarget(url)
                                     && forall k :: 0 <= k < i ==> clients[k].pathname != ClickTarget(url)
  {
    var target := ClickTarget(url);
    match FirstShowing(clients, target)
    case Some(i) => Focus(clients[i])
    case None => OpenWindow(target)
  }

  /** Clicking a pushed notification focuses the first page already on its URL. */
  lemma ClickFocusesPageOnPushedUrl(d: PushData, clients: seq<Client>, i: nat)
    requires i < |clients|
    requires clients[i].pathname == PushNotification(d).url
    ensures OnNotificationClick(Some(PushNotification(d).url), clients).Focus?
  {
  }
}

=== FILE: router.dfy ===
/**
 * The `fetch` handler: a first-match-wins classifier from a request to a
 * strategy and a cache, and the dispatch of the request to that strategy.
 */
module Router {
  import opened Common
  import opened Http
  import opened Config
  import opened CacheStorage
  import opened Strategies

  /** The parts of a parsed request URL the worker reads. */
  datatype Url = Url(href: string, origin: string, hostname: string, pathname: string)

  /** The parts of a request the worker reads. */
  datatype Request = Request(verb: string, mode: string, url: Url, destination: string)

  datatype Strategy = CacheFirstStrategy | StaleWhileRevalidateStrategy | NetworkFirstStrategy

  /** How to answer a request: the strategy, the cache it writes to, and whether the offline page is the fallback. */
  datatype Decision = Decision(strategy: Strategy, cache: string, offlineFallback: bool)

  /** Cross-origin requests are API calls when their host is listed; same-origin ones when their path is under `/api/`. */
  predicate IsApi(url: Url, selfOrigin: string)
    ensures url.origin != selfOrigin ==> (IsApi(url, selfOrigin) <==> url.hostname == "jsonplaceholder.typicode.com")
    ensures url.origin == selfOrigin ==>
              (IsApi(url, selfOrigin) <==> |url.pathname| >= 5 && url.pathname[..5] == "/api/")
  {
    if url.origin != selfOrigin then url.hostname in ApiHosts else StartsWith(url.pathname, ApiPrefix)
  }

  predicate IsNavigation(req: Request) { req.mode == "navigate" }

  predicate IsShellPath(req: Request) { req.url.pathname in AppShell }

  predicate IsStaticAsset(req: Request)
  {
    req.destination == "script" || req.destination == "style" || req.destination == "font" || req.destination == "manifest"
  }

  /** The routing of the `fetch` handler; `None` means the request is not answered by the worker. */
  function Route(req: Request, selfOrigin: string): (d: Option<Decision>)
    ensures d.None? <==> req.verb != "GET"
    ensures d.Some? ==> (d.value.offlineFallback <==> IsNavigation(req))
    ensures d.Some? ==> (d.value == Decision(NetworkFirstStrategy, StaticCache, true) <==> IsNavigation(req))
    ensures d.Some? ==> (d.value == Decision(CacheFirstStrategy, StaticCache, false) <==>
                          !IsNavigation(req) && IsShellPath(req))
    ensures d.Some? ==> (d.value == Decision(NetworkFirstStrategy, RuntimeCache, false) <==>
                          !IsNavigation(req) && !IsShellPath(req) && IsApi(req.url, selfOrigin))
    ensures d.Some? ==> (d.value == Decision(StaleWhileRevalidateStrategy, ImageCache, false) <==>
                          !IsNavigation(req) && !IsShellPath(req) && !IsApi(req.url, selfOrigin)
                          && req.destination == "image")
    ensures d.Some? ==> (d.value == Decision(StaleWhileRevalidateStrategy, RuntimeCache, false) <==>
                          !IsNavigation(req) && !IsShellPath(req) && !IsApi(req.url, selfOrigin)
                          && req.destination != "image")
  {
    if req.verb != "GET" then None
    else if IsNavigation(req) then Some(Decision(NetworkFirstStrategy, StaticCache, true))
    else if IsShellPath(req) then Some(Decision(CacheFirstStrategy, StaticCache, false))
    else if IsApi(req.url, selfOrigin) then Some(Decision(NetworkFirstStrategy, RuntimeCache, false))
    else if req.destination == "image" then Some(Decision(StaleWhileRevalidateStrategy, ImageCache, false))
    else if IsStaticAsset(req) then Some(Decision(StaleWhileRevalidateStrategy, RuntimeCache, false))
    else Some(Decision(StaleWhileRevalidateStrategy, RuntimeCache, false))
  }

  /** The conditions of the routing table, one per row. */
  datatype Guard = Navigation | ShellPath | ApiCall | ImageDestination | StaticAssetDestination | Always

  datatype Rule = Rule(guard: Guard, decision: Decision)

  predicate Holds(g: Guard, req: Request, selfOrigin: string)
  {
    match g
    case Navigation => IsNavigation(req)
    case ShellPath => IsShellPath(req)
    case ApiCall => IsApi(req.url, selfOrigin)
    case ImageDestination => req.destination == "image"
    case StaticAssetDestination => IsStaticAsset(req)
    case Always => true
  }

  /** The routing table of the worker, in priority order. */
  const Table: seq<Rule> := [
    Rule(Navigation, Decision(NetworkFirstStrategy, StaticCache, true)),
    Rule(ShellPath, Decision(CacheFirstStrategy, StaticCache, false)),
    Rule(ApiCall, Decision(NetworkFirstStrategy, RuntimeCache, false)),
    Rule(ImageDestination, Decision(StaleWhileRevalidateStrategy, ImageCache, false)),
    Rule(StaticAssetDestination, Decision(StaleWhileRevalidateStrategy, RuntimeCache, false)),
    Rule(Always, Decision(StaleWhileRevalidateStrategy, RuntimeCache, false))
  ]

  /** The decision of the first rule whose guard holds. */
  function FirstMatch(rules: seq<Rule>, req: Request, selfOrigin: string): (d: Option<Decision>)
    ensures d.None? <==> forall i :: 0 <= i < |rules| ==> !Holds(rules[i].guard, req, selfOrigin)
    ensures d.Some? ==> exists i :: 0 <= i < |rules| && Holds(rules[i].guard, req, selfOrigin)
                                    && d.value == rules[i].decision
                                    && forall j :: 0 <= j < i ==> !Holds(rules[j].guard, req, selfOrigin)
  {
    if |rules| == 0 then None
    else if Holds(rules[0].guard, req, selfOrigin) then Some(rules[0].decision)
    else
      var d := FirstMatch(rules[1..], req, selfOrigin);
      assert forall i :: 1 <= i < |rules| ==> rules[i] == rules[1..][i - 1];
      d
  }

  /** The `fetch` handler's chain of tests is the routing table read first-match-wins. */
  lemma RouteIsTable(req: Request, selfOrigin: string)
    ensures Route(req, selfOrigin) == if req.verb == "GET" then FirstMatch(Table, req, selfOrigin) else None
  {
    if req.verb == "GET" {
      var t := Table;
      assert t[0..] == t;
      assert t[1..][1..] == t[2..] && t[2..][1..] == t[3..];
      FirstMatchStep(t, req, selfOrigin);
      FirstMatchStep(t[1..], req, selfOrigin);
      FirstMatchStep(t[2..], req, selfOrigin);
      TableTail(req, selfOrigin);
    }
  }

  /** The last three rows all serve stale-while-revalidate, from the image cache for images only. */
  lemma TableTail(req: Request, selfOrigin: string)
    ensures FirstMatch(Table[3..], req, selfOrigin)
            == Some(Decision(StaleWhileRevalidateStrategy, if req.destination == "image" then ImageCache else RuntimeCache, false))
  {
    var t := Table[3..];
    assert t[1..][1..] == Table[5..] && Table[5..][1..] == [];
    FirstMatchStep(t, req, selfOrigin);
    FirstMatchStep(t[1..], req, selfOrigin);
    FirstMatchStep(Table[5..], req, selfOrigin);
  }

  /** One step of the first-match search. */
  lemma FirstMatchStep(rules: seq<Rule>, req: Request, selfOrigin: string)
    requires |rules| > 0
    ensures FirstMatch(rules, req, selfOrigin) ==
            if Holds(rules[0].guard, req, selfOrigin) then Some(rules[0].decision) else FirstMatch(rules[1..], req, selfOrigin)
  {
  }

  /** Every read request gets exactly one decision. */
  lemma RouteTotalOnReads(req: Request, selfOrigin: string)
    requires req.verb == "GET"
    ensures FirstMatch(Table, req, selfOrigin).Some?
  {
    assert Holds(Table[5].guard, req, selfOrigin);
  }

  /** Rows are tried in order: a cross-origin request to an API host's root is served as an app-shell asset. */
  lemma ShellRowPrecedesApiRow(selfOrigin: string)
    requires selfOrigin != "https://jsonplaceholder.typicode.com"
    ensures var req := Request("GET", "cors", Url("https://jsonplaceholder.typicode.com/", "https://jsonplaceholder.typicode.com",
                                                  "jsonplaceholder.typicode.com", "/"), "");
            IsApi(req.url, selfOrigin) && Route(req, selfOrigin) == Some(Decision(CacheFirstStrategy, StaticCache, false))
  {
  }

  /** What the `fetch` handler does with one event: let it through, or answer it through a strategy. */
  datatype FetchEvent = PassThrough | Handled(step: Step)

  /** The cache key of the offline page. */
  function OfflineKey(selfOrigin: string): string { selfOrigin + OfflineUrl }

  /** Run the strategy a decision names; `net` is what the network would answer to this request. */
  function Apply(d: Decision, c: Caches, key: string, net: FetchOutcome, selfOrigin: string): (r: Step)
    ensures !r.fetched ==> d.strategy.CacheFirstStrategy? && r.caches == c && Match(c, key).Some?
    ensures r.reply.Reject? ==> d.strategy.CacheFirstStrategy? && net.FetchFailed? && Match(c, key).None?
    ensures net.FetchFailed? ==> r.caches == c
    ensures r.fetched && net.Fetched? ==> Contents(r.caches, d.cache) == Contents(c, d.cache)[key := net.response]
    ensures forall n :: n != d.cache ==> Lookup(r.caches, n) == Lookup(c, n)
    ensures forall k :: k != key ==> Match(r.caches, k) == Match(c, k)
    ensures d.strategy.NetworkFirstStrategy? && d.offlineFallback && net.FetchFailed? && Match(c, key).None?
            && Match(c, OfflineKey(selfOrigin)).Some? ==>
              r.reply == Respond(Match(c, OfflineKey(selfOrigin)).value)
    ensures r.reply.Undefined? ==>
              && net.FetchFailed? && Match(c, key).None?
              && (d.strategy.NetworkFirstStrategy? ==> d.offlineFallback && Match(c, OfflineKey(selfOrigin)).None?)
  {
    match d.strategy
    case CacheFirstStrategy => CacheFirst(c, key, d.cache, net)
    case StaleWhileRevalidateStrategy => StaleWhileRevalidate(c, key, d.cache, net)
    case NetworkFirstStrategy =>
      var fallback := if d.offlineFallback then Deferred(Match(c, OfflineKey(selfOrigin))) else NoFallback;
      NetworkFirst(c, key, d.cache, net, fallback)
  }

  /** The `fetch` handler. */
  function OnFetch(req: Request, selfOrigin: string, c: Caches, net: FetchOutcome): (e: FetchEvent)
    ensures e.PassThrough? <==> req.verb != "GET"
    ensures e.Handled? && !e.step.fetched ==> e.step.caches == c && IsShellPath(req) && !IsNavigation(req)
    ensures e.Handled? && e.step.reply.Reject? ==> IsShellPath(req) && !IsNavigation(req) && net.FetchFailed?
    ensures e.Handled? && net.FetchFailed? ==> e.step.caches == c
  {
    match Route(req, selfOrigin)
    case None => PassThrough
    case Some(d) => Handled(Apply(d, c, req.url.href, net, selfOrigin))
  }

  /** A key stored in some cache is found by `caches.match`. */
  lemma {:induction false} StoredKeyMatches(c: Caches, name: string, key: string)
    requires key in Contents(c, name)
    ensures Match(c, key).Some?
  {
  }

  /**
   * Once the app shell is installed and kept, a navigation is never left
   * empty: offline and uncached, it is answered with the offline page.
   */
  lemma NavigationAnsweredOffline(req: Request, selfOrigin: string, c: Caches, net: FetchOutcome)
    requires req.verb == "GET" && IsNavigation(req)
    requires OfflineKey(selfOrigin) in Contents(c, StaticCache)
    ensures OnFetch(req, selfOrigin, c, net).Handled?
    ensures OnFetch(req, selfOrigin, c, net).step.reply.Respond?
  {
  }

  /** The offline page is the third app-shell asset. */
  lemma OfflinePageIsShellAsset(selfOrigin: string)
    ensures ShellKeys(selfOrigin)[2] == OfflineKey(selfOrigin)
  {
  }

  /** When every app-shell fetch succeeds, install stores the offline page in the static cache. */
  lemma InstallStoresOfflinePage(c: Caches, selfOrigin: string, net: string -> FetchOutcome)
    requires ShellFetched(selfOrigin, net)
    ensures OfflineKey(selfOrigin) in Contents(Install(c, selfOrigin, net).caches, StaticCache)
  {
    InstallStoresShellAsset(c, selfOrigin, net, 2);
    OfflinePageIsShellAsset(selfOrigin);
  }
}

=== FILE: strategies.dfy ===
/**
 * The three caching strategies of the worker. Each one is an atomic step over
 * the caches, given the outcome the network would give to this request.
 */
module Strategies {
  import opened Common
  import opened Http
  import opened CacheStorage

  /**
   * What the promise handed to `respondWith` settles to: a response, a
   * rejection, or `undefined` (which the browser turns into a network error).
   */
  datatype Reply = Respond(response: Response) | Reject | Undefined

  /** One strategy run: its reply, the caches afterwards, and whether it went to the network. */
  datatype Step = Step(reply: Reply, caches: Caches, fetched: bool)

  /**
   * The fallback of network-first. Navigations pass the still-pending
   * `caches.match` of the offline page, which settles to that page or to `undefined`.
   */
  datatype Fallback = NoFallback | Deferred(resolved: Option<Response>)

  /** Cache-first: serve a cached copy without touching the network; otherwise fetch, store and serve. */
  function CacheFirst(c: Caches, key: string, name: string, net: FetchOutcome): (r: Step)
    ensures Match(c, key).Some? ==> r == Step(Respond(Match(c, key).value), c, false)
    ensures Match(c, key).None? && net.Fetched? ==>
              && r.fetched && r.reply == Respond(net.response)
              && Match(r.caches, key) == Some(net.response)
              && Contents(r.caches, name) == Contents(c, name)[key := net.response]
    ensures Match(c, key).None? && net.FetchFailed? ==> r == Step(Reject, c, true)
    ensures forall n :: n != name ==> Lookup(r.caches, n) == Lookup(c, n)
    ensures forall k :: k != key ==> Match(r.caches, k) == Match(c, k)
  {
    match Match(c, key)
    case Some(hit) => Step(Respond(hit), c, false)
    case None =>
      match net
      case Fetched(res) =>
        MatchPutFresh(c, name, key, res);
        PutContents(c, name, key, res);
        MatchPutOthers(c, name, key, res);
        Step(Respond(res), Put(c, name, key, res), true)
      case FetchFailed => Step(Reject, c, true)
  }

  /**
   * Stale-while-revalidate: serve the cached copy when there is one, whatever
   * the network does; the fetch always happens and a response it gets always
   * replaces the stored copy. Without a cached copy the network result is
   * served, and a failed fetch settles to the (absent) cached value.
   */
  function StaleWhileRevalidate(c: Caches, key: string, name: string, net: FetchOutcome): (r: Step)
    ensures r.fetched
    ensures Match(c, key).Some? ==> r.reply == Respond(Match(c, key).value)
    ensures Match(c, key).None? && net.Fetched? ==> r.reply == Respond(net.response)
    ensures Match(c, key).None? && net.FetchFailed? ==> r.reply == Undefined
    ensures net.Fetched? ==> Contents(r.caches, name) == Contents(c, name)[key := net.response]
    ensures net.FetchFailed? ==> r.caches == c
    ensures forall n :: n != name ==> Lookup(r.caches, n) == Lookup(c, n)
    ensures forall k :: k != key ==> Match(r.caches, k) == Match(c, k)
  {
    var cached := Match(c, key);
    match net
    case Fetched(res) =>
      PutContents(c, name, key, res);
      MatchPutOthers(c, name, key, res);
      var reply := if cached.Some? then Respond(cached.value) else Respond(res);
      Step(reply, Put(c, name, key, res), true)
    case FetchFailed =>
      Step(if cached.Some? then Respond(cached.value) else Undefined, c, true)
  }

  /**
   * Network-first: a fetched response is stored and served; when the fetch
   * fails, the cached copy is served, else the fallback, else `Response.error()`.
   */
  function NetworkFirst(c: Caches, key: string, name: string, net: FetchOutcome, fallback: Fallback): (r: Step)
    ensures r.fetched
    ensures !r.reply.Reject?
    ensures net.Fetched? ==>
              && r.reply == Respond(net.response)
              && Contents(r.caches, name) == Contents(c, name)[key := net.response]
    ensures net.FetchFailed? ==> r.caches == c
    ensures net.FetchFailed? && Match(c, key).Some? ==> r.reply == Respond(Match(c, key).value)
    ensures net.FetchFailed? && Match(c, key).None? && fallback.NoFallback? ==> r.reply == Respond(ErrorResponse)
    ensures net.FetchFailed? && Match(c, key).None? && fallback.Deferred? && fallback.resolved.Some? ==>
              r.reply == Respond(fallback.resolved.value)
    ensures r.reply.Undefined? <==> net.FetchFailed? && Match(c, key).None? && fallback == Deferred(None)
    ensures forall n :: n != name ==> Lookup(r.caches, n) == Lookup(c, n)
    ensures forall k :: k != key ==> Match(r.caches, k) == Match(c, k)
  {
    match net
    case Fetched(res) =>
      PutContents(c, name, key, res);
      MatchPutOthers(c, name, key, res);
      Step(Respond(res), Put(c, name, key, res), true)
    case FetchFailed =>
      var reply :=
        match Match(c, key)
        case Some(hit) => Respond(hit)
        case None =>
          match fallback
          case NoFallback => Respond(ErrorResponse)
          case Deferred(Some(page)) => Respond(page)
          case Deferred(None) => Undefined;
      Step(reply, c, true)
  }

  /** Once cache-first has served a response, every later call serves it again without fetching. */
  lemma CacheFirstServesAgain(c: Caches, key: string, name: string, first: FetchOutcome, later: FetchOutcome)
    requires CacheFirst(c, key, name, first).reply.Respond?
    ensures var s := CacheFirst(c, key, name, first);
            CacheFirst(s.caches, key, name, later) == Step(s.reply, s.caches, false)
  {
  }

  /** Offline, stale-while-revalidate still serves a cached copy and leaves the caches alone. */
  lemma StaleServedOffline(c: Caches, key: string, name: string)
    requires Match(c, key).Some?
    ensures StaleWhileRevalidate(c, key, name, FetchFailed) == Step(Respond(Match(c, key).value), c, true)
  {
  }

  /**
   * When `name` is the only cache holding `key`, a successful revalidation is
   * what the next request sees.
   */
  lemma RevalidatedCopyServedNext(c: Caches, key: string, name: string, res: Response, later: FetchOutcome)
    requires forall i :: 0 <= i < |c| && c[i].name != name ==> key !in c[i].entries
    ensures var s := StaleWhileRevalidate(c, key, name, Fetched(res));
            StaleWhileRevalidate(s.caches, key, name, later).reply == Respond(res)
  {
    MatchPutOwned(c, name, key, res);
  }

  /** Network-first never settles empty unless a deferred fallback itself settles empty. */
  lemma NetworkFirstNeverEmpty(c: Caches, key: string, name: string, net: FetchOutcome, fallback: Fallback)
    requires fallback != Deferred(None)
    ensures NetworkFirst(c, key, name, net, fallback).reply.Respond?
  {
  }
}

=== FILE: sync.dfy ===
/**
 * The worker's sync pass: read the pending records, POST each one in turn,
 * flag the acknowledged ones as synced, tell the open pages, and ask for a
 * background-sync retry while records remain pending.
 */
module Sync {
  import opened Common
  import opened Config
  import opened Http
  import opened EntryStore

  /** What the POST of one record does: it resolves with an HTTP status, or it throws. */
  datatype PostOutcome = Answered(status: int) | Threw

  /** `res.ok` on a resolved POST. */
  predicate Acknowledged(p: PostOutcome)
  {
    p.Answered? && OkStatus(p.status)
  }

  /** The ids of the entries whose POST is acknowledged, in delivery order. */
  function AcknowledgedIds(entries: seq<Entry>, post: Entry -> PostOutcome): (ids: seq<nat>)
    ensures |ids| <= |entries|
    ensures forall id :: id in ids <==>
              exists i :: 0 <= i < |entries| && entries[i].id == id && Acknowledged(post(entries[i]))
    decreases |entries|
  {
    if |entries| == 0 then []
    else
      var init := entries[..|entries| - 1];
      var last := entries[|entries| - 1];
      var ids := AcknowledgedIds(init, post);
      assert forall i :: 0 <= i < |init| ==> init[i] == entries[i];
      if Acknowledged(post(last)) then ids + [last.id] else ids
  }

  /** `sendToServer(entries)`: deliver the entries one after the other and collect the acknowledged ids. */
  method SendToServer(entries: seq<Entry>, post: Entry -> PostOutcome) returns (syncedIds: seq<nat>)
    ensures syncedIds == AcknowledgedIds(entries, post)
    ensures forall id :: id in syncedIds <==>
              exists i :: 0 <= i < |entries| && entries[i].id == id && Acknowledged(post(entries[i]))
  {
    syncedIds := [];
    var i := 0;
    while i < |entries|
      invariant 0 <= i <= |entries|
      invariant syncedIds == AcknowledgedIds(entries[..i], post)
    {
      var e := entries[i];
      assert entries[..i + 1][..i] == entries[..i];
      if Acknowledged(post(e)) {
        syncedIds := syncedIds + [e.id];
      }
      i := i + 1;
    }
    assert entries[..i] == entries;
  }

  /** What one sync pass leaves behind. */
  datatype SyncReport = SyncReport(
    store: Store,
    /** The `{type: 'synced', count}` message posted to every window client, if any. */
    notifiedCount: Option<nat>,
    /** Whether a new `sync-entries` registration was requested. */
    reregistered: bool)

  /** Some record of the store is still pending. */
  predicate HasPending(s: Store)
  {
    exists id :: id in s.records && s.records[id].status == Pending
  }

  /**
   * `syncEntries()`; `post` is what the sync endpoint does with each record,
   * and `syncSupported` whether the registration offers background sync.
   */
  function SyncEntries(s: Store, post: Entry -> PostOutcome, syncSupported: bool): (r: SyncReport)
    requires Valid(s)
    ensures Valid(r.store)
    ensures Evolves(s, r.store)
    ensures r.store.records.Keys == s.records.Keys && r.store.nextId == s.nextId
    ensures r.reregistered <==> syncSupported && HasPending(r.store)
    ensures r.notifiedCount.Some? ==> r.notifiedCount.value > 0
  {
    var pending := PendingEntries(s);
    if |pending| == 0 then
      PendingListed(s);
      SyncReport(s, None, false)
    else
      var ids := AcknowledgedIds(pending, post);
      var after := MarkAsSynced(s, ids);
      var still := PendingEntries(after);
      PendingListed(after);
      SyncReport(after, if |ids| > 0 then Some(|ids|) else None, |still| > 0 && syncSupported)
  }

  /** With nothing pending, a sync pass changes nothing, posts nothing and schedules nothing. */
  lemma SyncWithoutPendingIsNoOp(s: Store, post: Entry -> PostOutcome, syncSupported: bool)
    requires Valid(s)
    requires !HasPending(s)
    ensures SyncEntries(s, post, syncSupported) == SyncReport(s, None, false)
  {
    PendingListed(s);
  }

  /** The record with id `id` was pending and its POST was acknowledged. */
  predicate Delivered(s: Store, post: Entry -> PostOutcome, id: nat)
  {
    id in s.records && s.records[id].status == Pending && Acknowledged(post(s.records[id]))
  }

  /** A sync pass flips to synced exactly the pending records whose POST was acknowledged. */
  lemma SyncFlipsExactlyAcknowledged(s: Store, post: Entry -> PostOutcome, syncSupported: bool, id: nat)
    requires Valid(s)
    requires id in s.records
    ensures var after := SyncEntries(s, post, syncSupported).store;
            after.records[id].status == Synced <==> s.records[id].status == Synced || Delivered(s, post, id)
  {
  }

  /** The ids of the records a pass delivered. */
  function DeliveredIds(s: Store, post: Entry -> PostOutcome): set<nat>
  {
    set id | id in s.records && Delivered(s, post, id)
  }

  /** Acknowledged ids of entries with increasing ids are themselves increasing. */
  lemma {:induction false} AcknowledgedIdsIncreasing(entries: seq<Entry>, post: Entry -> PostOutcome)
    requires IdsIncreasing(entries)
    ensures Increasing(AcknowledgedIds(entries, post))
    decreases |entries|
  {
    if |entries| > 0 {
      var init := entries[..|entries| - 1];
      assert IdsIncreasing(init);
      AcknowledgedIdsIncreasing(init, post);
      var ids := AcknowledgedIds(init, post);
      forall k | 0 <= k < |ids| ensures ids[k] < entries[|entries| - 1].id {
        assert ids[k] in ids;
        var i :| 0 <= i < |init| && init[i].id == ids[k] && Acknowledged(post(init[i]));
        assert init[i] == entries[i];
      }
      var last := entries[|entries| - 1];
      if Acknowledged(post(last)) {
        var full := ids + [last.id];
        assert AcknowledgedIds(entries, post) == full;
        forall i, j | 0 <= i < j < |full| ensures full[i] < full[j] {
          assert full[i] == ids[i];
          if j < |ids| {
            assert full[j] == ids[j];
          } else {
            assert full[j] == last.id;
          }
        }
      }
    }
  }

  /** The numbers strictly increase along `ids`. */
  predicate Increasing(ids: seq<nat>)
  {
    forall i, j :: 0 <= i < j < |ids| ==> ids[i] < ids[j]
  }

  /** The numbers of a sequence, as a set. */
  function Elems(ids: seq<nat>): set<nat>
  {
    set id | id in ids
  }

  /** A sequence of strictly increasing numbers has as many elements as its set. */
  lemma {:induction false} IncreasingCard(ids: seq<nat>)
    requires Increasing(ids)
    ensures |Elems(ids)| == |ids|
  {
    if |ids| > 0 {
      var tail := ids[1..];
      IncreasingCard(tail);
      assert ids[0] !in Elems(tail);
      assert Elems(ids) == {ids[0]} + Elems(tail);
    }
  }

  /** Some record is pending exactly when the pending listing is not empty. */
  lemma PendingListed(s: Store)
    requires Valid(s)
    ensures HasPending(s) <==> |PendingEntries(s)| > 0
  {
    var pending := PendingEntries(s);
    if HasPending(s) {
      var id :| id in s.records && s.records[id].status == Pending;
      assert s.records[id] in pending;
    }
    if |pending| > 0 {
      assert pending[0] in pending;
      var id :| id in s.records && s.records[id] == pending[0];
    }
  }

  /** The count posted to the pages is the number of records this pass flipped to synced. */
  lemma SyncNotifiesDeliveredCount(s: Store, post: Entry -> PostOutcome, syncSupported: bool)
    requires Valid(s)
    ensures var r := SyncEntries(s, post, syncSupported);
            && (r.notifiedCount.Some? <==> DeliveredIds(s, post) != {})
            && (r.notifiedCount.Some? ==> r.notifiedCount.value == |DeliveredIds(s, post)|)
  {
    var pending := PendingEntries(s);
    var ids := AcknowledgedIds(pending, post);
    assert Elems(ids) == DeliveredIds(s, post) by {
      forall id | id in ids ensures Delivered(s, post, id) {
        var i :| 0 <= i < |pending| && pending[i].id == id && Acknowledged(post(pending[i]));
        assert pending[i] in s.records.Values;
      }
      forall id | Delivered(s, post, id) ensures id in ids {
        assert s.records[id] in s.records.Values;
        var i :| 0 <= i < |pending| && pending[i] == s.records[id];
      }
    }
    AcknowledgedIdsIncreasing(pending, post);
    IncreasingCard(ids);
  }

  /** A second pass with the same endpoint behaviour delivers nothing new. */
  lemma SyncSettles(s: Store, post: Entry -> PostOutcome, syncSupported: bool)
    requires Valid(s)
    ensures var r := SyncEntries(s, post, syncSupported);
            DeliveredIds(r.store, post) == {}
  {
  }

  /** The three pending records of the partial-delivery example, created in order. */
  const RecordA: Entry := Entry(1, "a", 10, Pending)
  const RecordB: Entry := Entry(2, "b", 20, Pending)
  const RecordC: Entry := Entry(3, "c", 30, Pending)
  const ThreeRecords: Store := Store(map[1 := RecordA, 2 := RecordB, 3 := RecordC], 4)

  /** The endpoint of the example: it rejects record 2 and accepts the others. */
  function RejectSecond(e: Entry): PostOutcome
  {
    if e.id == 2 then Answered(500) else Answered(201)
  }

  /** Three records under keys 1 to 3 are read in key order. */
  lemma ReadThreeInKeyOrder(m: map<nat, Entry>, a: Entry, b: Entry, c: Entry)
    requires m == map[1 := a, 2 := b, 3 := c]
    ensures InKeyOrder(m, 4) == [a, b, c]
  {
    assert InKeyOrder(m, 1) == [];
    assert InKeyOrder(m, 2) == [a];
    assert InKeyOrder(m, 3) == [a, b];
  }

  /** Filtering three records by status. */
  lemma FilterThree(a: Entry, b: Entry, c: Entry, status: Status)
    requires a.status == status && c.status == status
    ensures FilterStatus([a, b, c], status) == if b.status == status then [a, b, c] else [a, c]
    ensures b.status != status ==> FilterStatus([a, b, c], b.status) == [b]
  {
    assert [a, b, c][1..] == [b, c] && [b, c][1..] == [c] && [c][1..] == [];
    assert FilterStatus([c], status) == [c];
    assert FilterStatus([c], b.status) == if b.status == status then [c] else [];
    assert FilterStatus([b, c], b.status) == [b] + FilterStatus([c], b.status);
  }

  /** The endpoint of the example acknowledges records 1 and 3. */
  lemma RejectSecondAcknowledges()
    ensures AcknowledgedIds([RecordA, RecordB, RecordC], RejectSecond) == [1, 3]
  {
    var s := [RecordA, RecordB, RecordC];
    assert s[..2] == [RecordA, RecordB] && s[..2][..1] == [RecordA] && s[..2][..1][..0] == [];
    assert AcknowledgedIds([], RejectSecond) == [];
    assert AcknowledgedIds([RecordA], RejectSecond) == [1];
    assert AcknowledgedIds([RecordA, RecordB], RejectSecond) == [1];
  }

  /** The example's store after records 1 and 3 are flagged. */
  const TwoSynced: Store :=
    Store(map[1 := RecordA.(status := Synced), 2 := RecordB, 3 := RecordC.(status := Synced)], 4)

  lemma ThreeRecordsAllPending()
    ensures PendingEntries(ThreeRecords) == [RecordA, RecordB, RecordC]
  {
    ReadThreeInKeyOrder(ThreeRecords.records, RecordA, RecordB, RecordC);
    FilterThree(RecordA, RecordB, RecordC, Pending);
  }

  lemma MarkFirstAndThird()
    ensures MarkAsSynced(ThreeRecords, [1, 3]) == TwoSynced
  {
  }

  lemma TwoSyncedListing()
    ensures PendingEntries(TwoSynced) == [RecordB]
    ensures ByStatus(TwoSynced, Synced) == [RecordA.(status := Synced), RecordC.(status := Synced)]
  {
    var a', c' := RecordA.(status := Synced), RecordC.(status := Synced);
    ReadThreeInKeyOrder(TwoSynced.records, a', RecordB, c');
    FilterThree(a', RecordB, c', Synced);
  }

  /** Three pending records, the endpoint accepting the first and third: only the second stays pending. */
  lemma PartialDelivery()
    ensures var r := SyncEntries(ThreeRecords, RejectSecond, true);
            && PendingEntries(r.store) == [RecordB]
            && ByStatus(r.store, Synced) == [RecordA.(status := Synced), RecordC.(status := Synced)]
            && r.notifiedCount == Some(2)
            && r.reregistered
  {
    ThreeRecordsAllPending();
    RejectSecondAcknowledges();
    MarkFirstAndThird();
    TwoSyncedListing();
  }

  /** Which worker events start a sync pass. */
  datatype WorkerEvent = SyncEvent(tag: string) | MessageEvent(data: string)

  /** The `sync` and `message` handlers: a pass runs for the `sync-entries` tag and the `try-sync-now` message only. */
  function OnEvent(ev: WorkerEvent, s: Store, post: Entry -> PostOutcome, syncSupported: bool): (r: Option<SyncReport>)
    requires Valid(s)
    ensures r.Some? <==> ev == SyncEvent(SyncTag) || ev == MessageEvent(TrySyncNow)
    ensures r.Some? ==> r.value == SyncEntries(s, post, syncSupported)
  {
    match ev
    case SyncEvent(tag) => if tag == SyncTag then Some(SyncEntries(s, post, syncSupported)) else None
    case MessageEvent(data) => if data == TrySyncNow then Some(SyncEntries(s, post, syncSupported)) else None
  }
}
